=== FILE: README.md ===
# CombatGame core, modelled in Dafny

This project models the game logic of CombatGame, a small Java arena shooter.

- **The JavaFX combat engine** (`CombatGame` in `enemy_system.java`). A defender moves with W/A/S/D and fires a four-way volley. Three enemy archetypes (Basic, Strong, Boss) chase it, and the Boss fires an eight-shot ring. Three scripted waves are released by a two-state wave controller. A collision pass resolves shots against enemies, then enemies against the defender, and the run stops when the defender's health reaches 0.
- **The stat records** `GameStats` and `PlayerStats`. Their fields are Java `int`s, and the model wraps them at 32 bits.
- **The Swing prototype**: `LevelManager` (stage/wave progression and random edge spawns), `GameObject.clamp` and `Player.update` (arrow keys and WASD, with diagonals scaled by 0.707).

## How it is modelled

- Every Java object is an immutable datatype, and every mutating method is a function that returns the updated value.
- Three loops in the engine walk their list from the back and remove elements as they go: `updateProjectiles`, `updateEnemies` and the hit loop of `checkCollisions`.
  - `updateEnemies` and the hit loop are modelled as back-to-front recursion (`EnemySystem.UpdateEnemies`, `CollisionSystem.ResolveHits`). They have front-to-back reference definitions (`Living`, `Bounty`, `Misses`, `DamageTo`), and lemmas prove the two agree.
  - `updateProjectiles` is modelled as the Java in-place index loop (`ProjectileSystem.UpdateProjectiles`). A loop invariant proves it equal to the front-to-back `ProjectileSystem.Surviving`, which the tick uses.
- The contact loop of `checkCollisions` walks the enemies front to back and removes nothing. `CollisionSystem.Contact` recurses front to back in the same way.
- The engine's `Math.sqrt` distance tests are written as squared-distance tests. This is exact, because every radius is non-negative.
- Three things the engine computes with `sqrt`, `cos` and `sin` come from a caller-supplied `Trig` record instead:
  - the pursuit step of an enemy;
  - the velocities of the boss's ring;
  - the ring positions where waves 1-3 spawn.
- The boss's own spawn point, (460, 100), is exact.
- The defender's coordinates are integers: it starts at integers, moves by 5 and is clamped to integer bounds. Timers and enemy and projectile positions are `real`.
- I/O is replaced by parameters:
  - the frame's `deltaTime` (`dt`);
  - the held keys (`Controls`, or a `set<int>` of key codes for the Swing player);
  - the millisecond clock of `LevelManager` (`now`);
  - `java.util.Random`, which becomes a stream of draws (`nat -> nat`): `nextInt(n)` is `draw % n`, and a bound of 0 or less raises IllegalArgumentException.

### Behaviour of the code worth noting

- **Contact damage.** It is the literal 10; the archetype's `contactDamage` is never read. An enemy that touches the defender is not removed, and it deals damage again on every tick it overlaps.
- **Kills and contact in the same tick.** An enemy killed by a shot in a collision pass still deals contact damage in that same pass, because dead enemies are pruned only in the next tick's enemy pass (`CollisionSystem.CheckCollisionsOutcome`).
- **Enemy shots.** Hostile projectiles never damage the defender. They are never tested against it, and they cannot hit enemies either.
- **Shooting.** The engine's defender has no ammunition; only the 0.3-second cooldown limits shots.
- **Diagonal movement.** In the engine it is not normalised, so a diagonal step is 5 on each axis. The Swing prototype scales diagonals by 0.707.
- **Time steps.** `Projectile.update` ignores `dt`. The shot cooldown counts down a fixed 0.016 per tick.
- **Waves.** They are fixed rosters, placed on rings: 8 Basic, then 6 Strong, then a Boss with 4 Strong. The Boss's trigger range is the literal 300, measured before its pursuit step. After wave 3 the wave counter keeps rising on every cooldown, but nothing spawns. The "victory" assignment `gameRunning = true` is kept, and `WaveSystem.VictoryBranchIsNoOp` proves it changes nothing.
- **Spawn placement.** `LevelManager` places enemies on a random panel edge, wherever the player is.

## Model

| member | source | states |
|---|---|---|
| CombatEntities.NewDefender | src/main/java/com/example/combatgame01/enemy_system.java:366-374 | a new defender has 100 health, a zero shot cooldown and the given corner |
| CombatEntities.ClampAxis | src/main/java/com/example/combatgame01/enemy_system.java:384-385 | the clamped coordinate lies in [0, hi]; it is unchanged when already inside, 0 below and hi above |
| CombatEntities.MoveDefender | src/main/java/com/example/combatgame01/enemy_system.java:376-391 | after moving, the defender is inside the arena (corner in [0,960]x[0,660]); health is kept; a positive cooldown drops by 0.016 and a non-positive one is kept |
| CombatEntities.MoveIsNearestInArena | src/main/java/com/example/combatgame01/enemy_system.java:378-385 | on each axis, the clamped position is at least as close to the key-displaced target as any other arena position |
| CombatEntities.OppositeKeysCancel | src/main/java/com/example/combatgame01/enemy_system.java:378-381 | inside the arena, holding both or neither key of an opposite pair leaves that coordinate unchanged |
| CombatEntities.SingleKeyStep | src/main/java/com/example/combatgame01/enemy_system.java:378-385 | away from the walls, each single held key moves the defender by exactly 5 on its own axis and not on the other |
| CombatEntities.DefenderTakeDamage | src/main/java/com/example/combatgame01/enemy_system.java:404-407 | health becomes health - amount, floored at 0; position and cooldown are untouched |
| CombatEntities.DefenderDeathThreshold | src/main/java/com/example/combatgame01/enemy_system.java:404-411 | after a hit the defender is dead exactly when the damage is at least its health, its health is then exactly 0, and a dead defender stays dead under non-negative damage |
| CombatEntities.OffScreen | src/main/java/com/example/combatgame01/enemy_system.java:586-588 | a projectile is off screen exactly when it is outside the band [-50,1050]x[-50,750] |
| CombatEntities.Volley | src/main/java/com/example/combatgame01/enemy_system.java:396-399 | a volley is four 10-damage defender shots, moving up, down, left and right at speed 8, in that order |
| CombatEntities.Shoot | src/main/java/com/example/combatgame01/enemy_system.java:393-402 | with the cooldown at or below 0, a volley is appended after the existing projectiles and the cooldown becomes 0.3; otherwise nothing changes |
| CombatEntities.Stats | src/main/java/com/example/combatgame01/enemy_system.java:435-438 | each archetype row has positive health, size and point value |
| CombatEntities.ArchetypesRanked | src/main/java/com/example/combatgame01/enemy_system.java:436-438 | Basic, Strong and Boss are strictly ranked: more health, size, contact damage, points and range, less speed |
| CombatEntities.NewEnemy | src/main/java/com/example/combatgame01/enemy_system.java:471-476 | a new enemy has its archetype's full health, a zero attack cooldown and the given corner, and is not dead |
| CombatEntities.EnemyTakeDamage | src/main/java/com/example/combatgame01/enemy_system.java:534-536 | enemy health drops by exactly the amount, with no floor; nothing else changes |
| CombatEntities.EnemyDeathThreshold | src/main/java/com/example/combatgame01/enemy_system.java:534-540 | after a hit an enemy is dead exactly when the damage is at least its health; a dead enemy stays dead under non-negative damage; a fresh enemy survives any hit below its archetype health |
| CombatEntities.PointValue | src/main/java/com/example/combatgame01/enemy_system.java:558 | every enemy is worth a positive bounty, between the basic and the boss archetype values |
| CombatEntities.Touches | src/main/java/com/example/combatgame01/enemy_system.java:542-553 | an enemy touches the defender when their centres are closer than the two half sizes added together; concentric bodies always touch |
| CombatEntities.TouchesIsNearby | src/main/java/com/example/combatgame01/enemy_system.java:542-553 | a touching enemy is within the combined half sizes on each axis, and the test ignores both sides' health |
| CombatEntities.Hits | src/main/java/com/example/combatgame01/enemy_system.java:590-603 | only the defender's shots can hit; a hit shot's centre is within 5 plus the half size on the x axis; a defender shot centred on the enemy always hits |
| CombatEntities.EnemyShotsNeverHit | src/main/java/com/example/combatgame01/enemy_system.java:590-591 | a projectile not fired by the defender never collides with an enemy |
| ProjectileSystem.Surviving | src/main/java/com/example/combatgame01/enemy_system.java:225-234 | the projectiles that survive a pass are no more than before, and all of them are inside the band |
| ProjectileSystem.UpdateProjectiles | src/main/java/com/example/combatgame01/enemy_system.java:225-234 | the back-to-front in-place loop yields exactly the front-to-back reference: the advanced projectiles that are on screen, in their original order |
| ProjectileSystem.SurvivingAppend | src/main/java/com/example/combatgame01/enemy_system.java:225-234 | the pass distributes over concatenation, so survivors keep their relative order |
| ProjectileSystem.SurvivingMembers | src/main/java/com/example/combatgame01/enemy_system.java:225-234 | q survives exactly when some projectile advances to q and q is not off screen |
| EnemySystem.CooledDown | src/main/java/com/example/combatgame01/enemy_system.java:490-493 | the attack cooldown counts down by the tick only while positive; at or below zero it is left as it is, so a non-negative tick never raises it |
| EnemySystem.CooldownSettles | src/main/java/com/example/combatgame01/enemy_system.java:490-493 | once the countdown is at or below zero, further ticks leave it unchanged |
| EnemySystem.BossFires | src/main/java/com/example/combatgame01/enemy_system.java:491-499 | only a boss fires; a boss that has cooled down always fires at a target on its centre; a firing boss is within 300 on the x axis |
| EnemySystem.BossRing | src/main/java/com/example/combatgame01/enemy_system.java:502-512 | the boss attack fires 8 hostile shots of 15 damage |
| EnemySystem.StepEnemy | src/main/java/com/example/combatgame01/enemy_system.java:478-500 | an enemy step keeps health and archetype; the boss fires (8 shots, cooldown 3.0) exactly when its counted-down cooldown is at most 0 and its pre-move distance is below 300; otherwise no shots and the counted-down cooldown; at distance 0 it does not move |
| EnemySystem.UpdateEnemies | src/main/java/com/example/combatgame01/enemy_system.java:240-250 | the enemy pass returns only living enemies, no more than it was given, gains non-negative points and fires only hostile 15-damage shots |
| EnemySystem.UpdateEnemiesRemovesExactlyTheDead | src/main/java/com/example/combatgame01/enemy_system.java:240-250 | the survivors are exactly the living enemies, in order, each after its step; the points gained are the total point value of the dead |
| EnemySystem.UpdateEnemiesScoreGain | src/main/java/com/example/combatgame01/enemy_system.java:245-247 | the points gained equal the bounty of the dead enemies and are never negative |
| EnemySystem.NoDeadNoBounty | src/main/java/com/example/combatgame01/enemy_system.java:245-247 | the bounty of a list is zero exactly when none of its enemies is dead |
| CollisionSystem.HitIndex | src/main/java/com/example/combatgame01/enemy_system.java:260-267 | a shot resolves against the enemy with the largest index it overlaps; it misses exactly when it overlaps none |
| CollisionSystem.HitIndexIgnoresHealth | src/main/java/com/example/combatgame01/enemy_system.java:590-603 | enemy health does not affect which enemy a shot resolves against |
| CollisionSystem.ResolveHits | src/main/java/com/example/combatgame01/enemy_system.java:258-268 | the hit loop changes only enemy health, never positions, kinds or count, and never adds projectiles |
| CollisionSystem.ResolveHitsKeepsExactlyTheMisses | src/main/java/com/example/combatgame01/enemy_system.java:258-268 | the projectiles left after the hit loop are exactly those that overlap no enemy, in their original order |
| CollisionSystem.ResolveHitsDamage | src/main/java/com/example/combatgame01/enemy_system.java:258-268 | each enemy loses exactly the summed damage of the shots resolved against it, with no clamping |
| CollisionSystem.ResolveHitsConservesDamage | src/main/java/com/example/combatgame01/enemy_system.java:258-268 | the total health lost by the enemies equals the total damage of the removed projectiles |
| CollisionSystem.EnemyShotsSurviveHits | src/main/java/com/example/combatgame01/enemy_system.java:258-268 | hostile projectiles are never removed by the hit loop |
| CollisionSystem.Contact | src/main/java/com/example/combatgame01/enemy_system.java:271-278 | the contact loop changes only the defender's health (and the running flag) |
| CollisionSystem.ContactOutcomeExact | src/main/java/com/example/combatgame01/enemy_system.java:271-278 | with n touching enemies, health becomes max(0, h - 10n) (h when n = 0); the run stops exactly when some contact leaves the defender dead |
| CollisionSystem.CheckCollisions | src/main/java/com/example/combatgame01/enemy_system.java:256-279 | the collision pass keeps enemy bodies and the defender's position, and never restarts a stopped run |
| CollisionSystem.CheckCollisionsOutcome | src/main/java/com/example/combatgame01/enemy_system.java:256-279 | the whole pass: survivors are the misses, enemies lose the damage aimed at them, and every enemy present at the start, even one just killed, counts for contact |
| WaveSystem.Ring | src/main/java/com/example/combatgame01/enemy_system.java:186-191 | a ring spawn has the given number of enemies of one archetype at the supplied positions |
| WaveSystem.SpawnWave | src/main/java/com/example/combatgame01/enemy_system.java:172-219 | wave 1 is 8 Basic, wave 2 is 6 Strong, wave 3 is the Boss at (460,100) plus 4 Strong, and any other wave is empty; all spawn with full health |
| WaveSystem.UpdateWaveSystem | src/main/java/com/example/combatgame01/enemy_system.java:152-170 | the wave controller only appends enemies, keeping the existing list as a prefix, and never lowers the wave number |
| WaveSystem.CooldownStep | src/main/java/com/example/combatgame01/enemy_system.java:153-159 | in Cooldown the timer drops by dt; on reaching 0 the wave number goes up by one, that roster is appended and Active starts with a 2-second timer |
| WaveSystem.ActiveStep | src/main/java/com/example/combatgame01/enemy_system.java:160-169 | Active switches to Cooldown exactly when the enemy list is empty, spawning nothing |
| WaveSystem.WaveNumberCountsTransitions | src/main/java/com/example/combatgame01/enemy_system.java:152-181 | the wave number rises, by exactly one, exactly on a Cooldown-to-Active transition |
| WaveSystem.UpdateWaveSystemKeepsCoherent | src/main/java/com/example/combatgame01/enemy_system.java:152-170 | the wave number stays non-negative and Active always carries the full timer |
| WaveSystem.VictoryBranchIsNoOp | src/main/java/com/example/combatgame01/enemy_system.java:164-167 | the victory assignment never changes a running game |
| WaveSystem.LateWavesSpawnNothing | src/main/java/com/example/combatgame01/enemy_system.java:172-181 | from wave 3 on, the controller never adds enemies |
| CombatGame.Launch | src/main/java/com/example/combatgame01/enemy_system.java:28-49 | the game starts with the defender's corner at (480, 330) |
| CombatGame.RestartGame | src/main/java/com/example/combatgame01/enemy_system.java:93-102 | a restart gives a fresh defender at (480,330) with 100 health, empty lists, a running game, score 0 and wave 0 in Cooldown with 2 seconds |
| CombatGame.PressRestart | src/main/java/com/example/combatgame01/enemy_system.java:75-75 | the R key restarts only a stopped game |
| CombatGame.Update | src/main/java/com/example/combatgame01/enemy_system.java:126-146 | a tick raises the score by exactly the bounty of the enemies dead at its start, keeps the defender in the arena at the position its keys give, and never lowers the wave number |
| CombatGame.Frame | src/main/java/com/example/combatgame01/enemy_system.java:118-120 | a frame of a stopped game changes nothing; no frame lowers the score or the wave number, or takes the defender out of the arena |
| CombatGame.RestartIsFreshLaunch | src/main/java/com/example/combatgame01/enemy_system.java:93-102 | a restart from any state equals a fresh launch, which satisfies the run invariants |
| CombatGame.FrameScore | src/main/java/com/example/combatgame01/enemy_system.java:118-146 | the score after a frame is exactly the old score plus, while running, the bounty of the enemies dead when the frame starts; with no dead enemy the score is unchanged |
| CombatGame.DeadDefenderFreezes | src/main/java/com/example/combatgame01/enemy_system.java:118-120 | in a valid state a dead defender means the game is frozen |
| CombatGame.FramePreservesValid | src/main/java/com/example/combatgame01/enemy_system.java:126-146 | every frame keeps the run invariants: defender in the arena, health in [0,100] and alive while running, score non-negative, wave state coherent, enemy health at most the archetype's, projectile damage non-negative |
| CombatGame.CollisionsKeepBounds | src/main/java/com/example/combatgame01/enemy_system.java:256-279 | the collision pass keeps enemy health at most its maximum, the defender's health in [0,100], and the defender alive while running |
| CombatGame.KillScenario | src/main/java/com/example/combatgame01/enemy_system.java:126-146 | a 30-damage shot on a Basic enemy takes it to 0 health; the next enemy pass prunes it for 50 points, and the wave controller returns to Cooldown |
| GameStats.New | src/main/java/com/example/combatgame01/GameStats.java:14-24 | a new record has the given health as current and maximum, 30 of 30 ammo, and zero counters |
| GameStats.SetMaxHealth | src/main/java/com/example/combatgame01/GameStats.java:29-31 | only the maximum health changes, with no clamping |
| GameStats.SetHealth | src/main/java/com/example/combatgame01/GameStats.java:60-62 | only health changes, with no clamping against the maximum |
| GameStats.SetAmmo | src/main/java/com/example/combatgame01/GameStats.java:36-38 | ammo is clamped into [0, maxAmmo]; in-range values are stored as given; only ammo changes |
| GameStats.SetAmmoIdempotent | src/main/java/com/example/combatgame01/GameStats.java:36-38 | setting the same ammo twice equals setting it once; re-setting valid current ammo changes nothing |
| GameStats.SetMaxAmmo | src/main/java/com/example/combatgame01/GameStats.java:44-47 | the new cap is stored and ammo is cut down to it when above it |
| GameStats.AddAmmo | src/main/java/com/example/combatgame01/GameStats.java:49-51 | with no overflow, ammo becomes the sum clamped to [0, maxAmmo] on both sides (a negative amount can empty it); it stays within [0, maxAmmo] even when the sum wraps |
| GameStats.UseAmmo | src/main/java/com/example/combatgame01/GameStats.java:53-55 | with no overflow, ammo becomes the difference clamped to [0, maxAmmo] on both sides (a negative amount can fill it to the cap); it stays within bounds |
| GameStats.AddScore | src/main/java/com/example/combatgame01/GameStats.java:69-71 | with no overflow, the score rises by the amount; nothing else changes |
| GameStats.AddKill | src/main/java/com/example/combatgame01/GameStats.java:77-79 | kills rise by one, wrapping from MAX_VALUE to MIN_VALUE |
| GameStats.AddDeath | src/main/java/com/example/combatgame01/GameStats.java:109-111 | deaths rise by one, wrapping at 32 bits |
| GameStats.IncrementCombo | src/main/java/com/example/combatgame01/GameStats.java:89-91 | combo rises by one, wrapping at 32 bits |
| GameStats.ResetCombo | src/main/java/com/example/combatgame01/GameStats.java:93-95 | combo becomes 0; nothing else changes |
| GameStats.IncrementStreak | src/main/java/com/example/combatgame01/GameStats.java:101-103 | streak rises by one, wrapping at 32 bits |
| GameStats.ResetStreak | src/main/java/com/example/combatgame01/GameStats.java:105-107 | streak becomes 0; nothing else changes |
| GameStats.AmmoBoundsHold | src/main/java/com/example/combatgame01/GameStats.java:36-55 | a new record satisfies 0 <= ammo <= maxAmmo, and every ammo operation keeps it |
| GameStats.AddAmmoOverflowEmpties | src/main/java/com/example/combatgame01/GameStats.java:49-51 | as written, adding MAX_VALUE to a full magazine leaves 0 ammo |
| GameStats.AddAmmoWide | src/main/java/com/example/combatgame01/GameStats.java:49-51 | corrected addAmmo: with a non-negative amount, ammo never drops and becomes min(ammo + n, maxAmmo) |
| GameStats.AddAmmoWideAgrees | src/main/java/com/example/combatgame01/GameStats.java:49-51 | where the sum does not overflow, the corrected addAmmo equals the original |
| PlayerStats.New | src/main/java/com/example/combatgame01/PlayerStats.java:8-11 | a new record has full health, 30 ammo and score 0 |
| PlayerStats.NewDefault | src/main/java/com/example/combatgame01/PlayerStats.java:14-16 | the no-argument constructor uses a maximum of 100 |
| PlayerStats.Reset | src/main/java/com/example/combatgame01/PlayerStats.java:19-23 | reset gives exactly a new record with the same maximum |
| PlayerStats.TakeDamage | src/main/java/com/example/combatgame01/PlayerStats.java:25-27 | with no overflow, health becomes max(0, health - d); health is never negative; a non-negative amount keeps the health bounds and never raises health |
| PlayerStats.Damage | src/main/java/com/example/combatgame01/PlayerStats.java:49-54 | health is never negative afterwards, and a non-negative amount keeps the health bounds |
| PlayerStats.DamageIsTakeDamage | src/main/java/com/example/combatgame01/PlayerStats.java:25-54 | damage and takeDamage agree on every record and amount |
| PlayerStats.UseAmmo | src/main/java/com/example/combatgame01/PlayerStats.java:29-31 | with no overflow, ammo becomes max(0, ammo - n); it is never negative |
| PlayerStats.AddAmmo | src/main/java/com/example/combatgame01/PlayerStats.java:33-35 | ammo never exceeds 30; with no overflow it becomes min(30, ammo + n) |
| PlayerStats.AddScore | src/main/java/com/example/combatgame01/PlayerStats.java:37-39 | with no overflow, the score rises by the amount; nothing else changes |
| PlayerStats.Heal | src/main/java/com/example/combatgame01/PlayerStats.java:60-65 | health never exceeds the maximum; with no overflow it becomes min(max, health + n) |
| PlayerStats.MaxHealthIsFinal | src/main/java/com/example/combatgame01/PlayerStats.java:3-6 | no operation changes the maximum health; within bounds, isDead holds exactly at 0 health |
| PlayerStats.HealOverflowBreaksBounds | src/main/java/com/example/combatgame01/PlayerStats.java:60-65 | as written, healing a full record by MAX_VALUE leaves negative health |
| PlayerStats.AddAmmoOverflowGoesNegative | src/main/java/com/example/combatgame01/PlayerStats.java:33-35 | as written, adding MAX_VALUE to a full magazine leaves negative ammo |
| PlayerStats.HealWide | src/main/java/com/example/combatgame01/PlayerStats.java:60-65 | corrected heal: with a non-negative amount, health never drops, stays within bounds and becomes min(max, health + n) |
| PlayerStats.AddAmmoWide | src/main/java/com/example/combatgame01/PlayerStats.java:33-35 | corrected addAmmo: with a non-negative amount, ammo stays in [0, 30] and becomes min(30, ammo + n) |
| PlayerStats.WideVersionsAgree | src/main/java/com/example/combatgame01/PlayerStats.java:33-65 | where no overflow happens, the corrected heal and addAmmo equal the originals |
| PlayerStats.HealthBoundsHold | src/main/java/com/example/combatgame01/PlayerStats.java:25-65 | with a non-negative amount, every health operation (using the corrected heal) keeps 0 <= health <= max |
| GameObject.ClampAxis | src/test/java/worldSystem/GameObject.java:18-23 | one axis of clamp: the far edge is never past the upper bound; when the box fits it ends within the bounds; a box already inside is untouched |
| GameObject.Clamp | src/test/java/worldSystem/GameObject.java:18-23 | clamp works on each axis independently and keeps the size and colour |
| GameObject.ClampIdempotent | src/test/java/worldSystem/GameObject.java:18-23 | clamping twice is the same as clamping once |
| GameObject.OversizedBoxSticksToFarEdge | src/test/java/worldSystem/GameObject.java:18-23 | a box wider than the bounds is placed flush with the far edge, past the near one |
| GameObject.AxesIndependent | src/test/java/worldSystem/GameObject.java:18-23 | the x result does not depend on y, and the y result does not depend on x |
| SwingPlayer.AxisSign | src/test/java/worldSystem/Player.java:15-18 | an axis is -1 exactly when only its minus pair is held, +1 exactly when only its plus pair is held, otherwise 0 |
| SwingPlayer.Direction | src/test/java/worldSystem/Player.java:15-18 | each axis is -1, 0 or +1; it is 0 exactly when both or neither of its key pairs are held, and negative exactly when only the left (up) pair is held |
| SwingPlayer.Displacement | src/test/java/worldSystem/Player.java:20-21 | a diagonal step is scaled by 0.707 and an axial step is not, before the 4.5 speed factor |
| SwingPlayer.Update | src/test/java/worldSystem/Player.java:13-22 | the body moves by the displacement, keeping its size and colour |
| SwingPlayer.DiagonalNotFaster | src/test/java/worldSystem/Player.java:20-21 | no step is longer than 4.5, and a diagonal step is within 0.1% of it |
| SwingPlayer.OppositeKeysCancel | src/test/java/worldSystem/Player.java:15-18 | holding both keys of an opposite pair cancels that axis |
| SwingPlayer.AliasesInterchangeable | src/test/java/worldSystem/Player.java:15-18 | an arrow key and its WASD alias act the same, and holding both counts once |
| SwingPlayer.AxialStep | src/test/java/worldSystem/Player.java:13-22 | one key moves the body by exactly 4.5 on its axis; no key means no movement |
| SwingPlayer.OtherKeysIgnored | src/test/java/worldSystem/Player.java:15-18 | keys other than the eight movement keys have no effect |
| LevelManager.Create | src/test/java/worldSystem/LevelManager.java:8-15 | a new manager is at stage 1, wave 0, with the creation time as its last wave |
| LevelManager.NextWave | src/test/java/worldSystem/LevelManager.java:20-22 | the wave goes up by one, unless it would exceed stage + 1; then the stage goes up and the wave restarts at 1; the range is kept |
| LevelManager.FirstWaves | src/test/java/worldSystem/LevelManager.java:20-22 | the first waves are (1,1), (1,2), (2,1), (2,2), (2,3), (3,1) |
| LevelManager.NextInt | src/test/java/worldSystem/LevelManager.java:34-40 | nextInt throws exactly when its bound is 0 or less, and otherwise returns a value in [0, bound) |
| LevelManager.PlaceEnemy | src/test/java/worldSystem/LevelManager.java:34-42 | placement throws exactly when the chosen edge's span is 20 or less; for a panel at least 20x20 that does not throw, the 20x20 red enemy sits on a panel edge |
| LevelManager.SpawnFrom | src/test/java/worldSystem/LevelManager.java:33-44 | the spawn loop places every remaining enemy on an edge, unless a draw throws part-way; on a panel wider and taller than 20 it never throws |
| LevelManager.SpawnWave | src/test/java/worldSystem/LevelManager.java:28-45 | a wave adds max(1, stage * wave) enemies, or fewer if it throws; on a panel at least 20x20 they all sit on the panel edges |
| LevelManager.SpawnCountIsProduct | src/test/java/worldSystem/LevelManager.java:29-29 | with stage and wave at least 1, the count is exactly stage * wave |
| LevelManager.Update | src/test/java/worldSystem/LevelManager.java:17-26 | update spawns only with no enemies and more than 2000 ms since the last wave; then the counters advance and lastWave becomes now, unless spawning threw |
| LevelManager.UpdateKeepsProgress | src/test/java/worldSystem/LevelManager.java:17-26 | update keeps stage >= 1 and 0 <= wave <= stage + 1, never lowers the stage, and, when nothing throws, spawns exactly stage * wave enemies, which sit on the edges when the panel is at least 20x20 |
| LevelManager.LastWaveMarksSpawns | src/test/java/worldSystem/LevelManager.java:17-26 | lastWave moves to now exactly when a wave is spawned in full, and enemies appear only then |

## Left out

- Rendering, the JavaFX `Application`/`AnimationTimer` plumbing, key-event wiring beyond the R key, colours of engine entities, `GamePanel`, `Input`, and the Swing `Enemy` class. These are presentation and I/O.
- `Math.sqrt`, `Math.cos`, `Math.sin`: the pursuit step, the boss ring velocities and the ring spawn positions are inputs (`Trig`). The model proves what holds for any values of these.
- Floating-point rounding: `double` and `float` are exact reals, so `SwingPlayer.DiagonalNotFaster` is about real arithmetic.
- Enemy speed in `LevelManager.spawnWave` (`baseSpeed + nextFloat() * 0.5`): it only feeds the Swing `Enemy` class. Its draw is consumed but not modelled.
- The multiplication `stage * wave` and the `long` clock arithmetic in `LevelManager` use unbounded integers. Overflow would need more than 46,000 stages.
- CombatGame.Update: the engine's `score` and enemy `health` are unbounded integers, not wrapped at 32 bits. Reaching the limit would take millions of kills.
- LevelManager.Update: after an IllegalArgumentException the model reports the counters and the enemies already placed. The exception then escapes `GamePanel.run`, which calls `update()` on its own `Thread`; that is not modelled.
- `GameStats` and `PlayerStats` getters, which read a field and nothing else.
- `CombatEntities.Advance` has no contract of its own. Its effect is stated through `ProjectileSystem.Surviving` and `CombatEntities.OffScreen`.

## Findings

| source | as written | input that shows it | evidently intended | confidence | as-written member | corrected member |
|---|---|---|---|---|---|---|
| src/main/java/com/example/combatgame01/PlayerStats.java:60-65 | `health += amount` wraps at 32 bits before the cap against `maxHealth` | `new PlayerStats()` then `heal(Integer.MAX_VALUE)` gives negative health | health = min(maxHealth, health + amount), computed without overflow | high (not executed) | PlayerStats.HealOverflowBreaksBounds | PlayerStats.HealWide |
| src/main/java/com/example/combatgame01/PlayerStats.java:33-35 | `Math.min(30, ammo + amount)` wraps before the cap | `new PlayerStats()` then `addAmmo(Integer.MAX_VALUE)` gives negative ammo | ammo = min(30, ammo + amount), computed without overflow | high (not executed) | PlayerStats.AddAmmoOverflowGoesNegative | PlayerStats.AddAmmoWide |
| src/main/java/com/example/combatgame01/GameStats.java:49-51 | `setAmmo(this.ammo + amount)` wraps, then clamps the negative sum to 0 | `new GameStats(100)` then `addAmmo(Integer.MAX_VALUE)` empties the magazine | adding ammunition never lowers it: ammo = min(ammo + amount, maxAmmo) | high (not executed) | GameStats.AddAmmoOverflowEmpties | GameStats.AddAmmoWide |

=== FILE: combat_collisions.dfy ===
/**
  `checkCollisions` of the combat game. First every projectile, from the back
  of the list, is tested against the enemies from the back of theirs: the
  first enemy it overlaps takes its damage and the projectile is removed.
  Then every enemy overlapping the defender deals a fixed 10 damage; if that
  kills the defender the run stops. Enemies are never removed here.
 */
module CollisionSystem {
  import opened JavaInt
  import opened CombatEntities

  /** Which enemy, if any, a projectile resolves against. */
  datatype Hit = Miss | HitAt(index: nat)

  /** The inner loop: the enemy with the largest index that the projectile overlaps. */
  function HitIndex(p: Projectile, es: seq<Enemy>): (r: Hit)
    ensures r.HitAt? ==> r.index < |es| && Hits(p, es[r.index])
    ensures r.HitAt? ==> forall k :: r.index < k < |es| ==> !Hits(p, es[k])
    ensures r.Miss? <==> forall k :: 0 <= k < |es| ==> !Hits(p, es[k])
    decreases |es|
  {
    if |es| == 0 then Miss
    else if Hits(p, es[|es| - 1]) then HitAt(|es| - 1)
    else HitIndex(p, es[..|es| - 1])
  }

  /** `b` is `a` with (at most) the enemies' health changed. */
  predicate SameBodies(a: seq<Enemy>, b: seq<Enemy>)
  {
    |a| == |b| && forall k :: 0 <= k < |a| ==> b[k] == a[k].(health := b[k].health)
  }

  /** Overlap tests read position and archetype only, so health changes do not move the hit. */
  lemma HitIndexIgnoresHealth(p: Projectile, a: seq<Enemy>, b: seq<Enemy>)
    requires SameBodies(a, b)
    ensures HitIndex(p, a) == HitIndex(p, b)
  {
    var ha, hb := HitIndex(p, a), HitIndex(p, b);
    assert forall k :: 0 <= k < |a| ==> (Hits(p, a[k]) <==> Hits(p, b[k])) by {
      forall k | 0 <= k < |a|
        ensures Hits(p, a[k]) <==> Hits(p, b[k])
      {
        assert b[k] == a[k].(health := b[k].health);
      }
    }
    if ha.HitAt? && hb.HitAt? {
      assert ha.index == hb.index;
    }
  }

  datatype HitPass = HitPass(projectiles: seq<Projectile>, enemies: seq<Enemy>)

  /** The outer loop, from the back of the projectile list, applying each hit as it is found. */
  function ResolveHits(ps: seq<Projectile>, es: seq<Enemy>): (r: HitPass)
    ensures SameBodies(es, r.enemies)
    ensures |r.projectiles| <= |ps|
    decreases |ps|
  {
    if |ps| == 0 then HitPass([], es)
    else
      var p := ps[|ps| - 1];
      var rest := ps[..|ps| - 1];
      match HitIndex(p, es)
      case Miss =>
        var r := ResolveHits(rest, es);
        HitPass(r.projectiles + [p], r.enemies)
      case HitAt(j) =>
        ResolveHits(rest, es[j := EnemyTakeDamage(es[j], p.damage)])
  }

  /** Reference: the projectiles that overlap no enemy, in order. */
  function Misses(ps: seq<Projectile>, es: seq<Enemy>): seq<Projectile>
    decreases |ps|
  {
    if |ps| == 0 then []
    else (if HitIndex(ps[0], es).Miss? then [ps[0]] else []) + Misses(ps[1..], es)
  }

  /** Reference: the damage enemy `j` receives, summing the projectiles that resolve against it. */
  function DamageTo(ps: seq<Projectile>, es: seq<Enemy>, j: nat): int
    decreases |ps|
  {
    if |ps| == 0 then 0
    else (if HitIndex(ps[0], es) == HitAt(j) then ps[0].damage else 0) + DamageTo(ps[1..], es, j)
  }

  function TotalDamage(ps: seq<Projectile>): int
    decreases |ps|
  {
    if |ps| == 0 then 0 else ps[0].damage + TotalDamage(ps[1..])
  }

  function TotalHealth(es: seq<Enemy>): int
    decreases |es|
  {
    if |es| == 0 then 0 else es[0].health + TotalHealth(es[1..])
  }

  lemma {:induction false} MissesSnoc(ps: seq<Projectile>, p: Projectile, es: seq<Enemy>)
    ensures Misses(ps + [p], es) == Misses(ps, es) + (if HitIndex(p, es).Miss? then [p] else [])
    decreases |ps|
  {
    if |ps| == 0 {
      assert ps + [p] == [p];
      assert [p][1..] == [];
    } else {
      assert (ps + [p])[1..] == ps[1..] + [p];
      MissesSnoc(ps[1..], p, es);
    }
  }

  lemma {:induction false} MissesIgnoreHealth(ps: seq<Projectile>, a: seq<Enemy>, b: seq<Enemy>)
    requires SameBodies(a, b)
    ensures Misses(ps, a) == Misses(ps, b)
    decreases |ps|
  {
    if |ps| > 0 {
      HitIndexIgnoresHealth(ps[0], a, b);
      MissesIgnoreHealth(ps[1..], a, b);
    }
  }

  lemma {:induction false} DamageToSnoc(ps: seq<Projectile>, p: Projectile, es: seq<Enemy>, j: nat)
    ensures DamageTo(ps + [p], es, j) == DamageTo(ps, es, j) + (if HitIndex(p, es) == HitAt(j) then p.damage else 0)
    decreases |ps|
  {
    if |ps| == 0 {
      assert ps + [p] == [p];
      assert [p][1..] == [];
    } else {
      assert (ps + [p])[1..] == ps[1..] + [p];
      DamageToSnoc(ps[1..], p, es, j);
    }
  }

  lemma {:induction false} DamageToIgnoresHealth(ps: seq<Projectile>, a: seq<Enemy>, b: seq<Enemy>, j: nat)
    requires SameBodies(a, b)
    ensures DamageTo(ps, a, j) == DamageTo(ps, b, j)
    decreases |ps|
  {
    if |ps| > 0 {
      HitIndexIgnoresHealth(ps[0], a, b);
      DamageToIgnoresHealth(ps[1..], a, b, j);
    }
  }

  lemma {:induction false} TotalDamageSnoc(ps: seq<Projectile>, p: Projectile)
    ensures TotalDamage(ps + [p]) == TotalDamage(ps) + p.damage
    decreases |ps|
  {
    if |ps| == 0 {
      assert ps + [p] == [p];
      assert [p][1..] == [];
    } else {
      assert (ps + [p])[1..] == ps[1..] + [p];
      TotalDamageSnoc(ps[1..], p);
    }
  }

  lemma {:induction false} TotalHealthUpdate(es: seq<Enemy>, j: nat, e: Enemy)
    requires j < |es|
    ensures TotalHealth(es[j := e]) == TotalHealth(es) - es[j].health + e.health
    decreases |es|
  {
    if j > 0 {
      assert es[j := e][1..] == es[1..][j - 1 := e];
      TotalHealthUpdate(es[1..], j - 1, e);
    }
  }

  /** A projectile is removed exactly when it hits: the survivors are the misses, in their original order. */
  lemma {:induction false} ResolveHitsKeepsExactlyTheMisses(ps: seq<Projectile>, es: seq<Enemy>)
    ensures ResolveHits(ps, es).projectiles == Misses(ps, es)
    decreases |ps|
  {
    if |ps| > 0 {
      var p := ps[|ps| - 1];
      var rest := ps[..|ps| - 1];
      assert ps == rest + [p];
      MissesSnoc(rest, p, es);
      match HitIndex(p, es)
      case Miss =>
        ResolveHitsKeepsExactlyTheMisses(rest, es);
      case HitAt(j) =>
        var es1 := es[j := EnemyTakeDamage(es[j], p.damage)];
        assert SameBodies(es, es1);
        ResolveHitsKeepsExactlyTheMisses(rest, es1);
        MissesIgnoreHealth(rest, es, es1);
    }
  }

  /** Each enemy loses exactly the damage of the projectiles resolved against it; nothing is clamped. */
  lemma {:induction false} ResolveHitsDamage(ps: seq<Projectile>, es: seq<Enemy>, j: nat)
    requires j < |es|
    ensures ResolveHits(ps, es).enemies[j].health == es[j].health - DamageTo(ps, es, j)
    decreases |ps|
  {
    if |ps| > 0 {
      var p := ps[|ps| - 1];
      var rest := ps[..|ps| - 1];
      assert ps == rest + [p];
      DamageToSnoc(rest, p, es, j);
      match HitIndex(p, es)
      case Miss =>
        ResolveHitsDamage(rest, es, j);
      case HitAt(i) =>
        var es1 := es[i := EnemyTakeDamage(es[i], p.damage)];
        assert SameBodies(es, es1);
        ResolveHitsDamage(rest, es1, j);
        DamageToIgnoresHealth(rest, es, es1, j);
    }
  }

  /**
    Every removed projectile lands on exactly one enemy: the health the
    enemies lose in total is the total damage of the removed projectiles.
   */
  lemma {:induction false} ResolveHitsConservesDamage(ps: seq<Projectile>, es: seq<Enemy>)
    ensures var r := ResolveHits(ps, es);
            TotalHealth(es) - TotalHealth(r.enemies) == TotalDamage(ps) - TotalDamage(r.projectiles)
    decreases |ps|
  {
    if |ps| > 0 {
      var p := ps[|ps| - 1];
      var rest := ps[..|ps| - 1];
      assert ps == rest + [p];
      TotalDamageSnoc(rest, p);
      match HitIndex(p, es)
      case Miss =>
        ResolveHitsConservesDamage(rest, es);
        TotalDamageSnoc(ResolveHits(rest, es).projectiles, p);
      case HitAt(j) =>
        var es1 := es[j := EnemyTakeDamage(es[j], p.damage)];
        ResolveHitsConservesDamage(rest, es1);
        TotalHealthUpdate(es, j, EnemyTakeDamage(es[j], p.damage));
    }
  }

  /** Shots fired by enemies never hit an enemy, so they always survive this pass. */
  lemma EnemyShotsSurviveHits(ps: seq<Projectile>, es: seq<Enemy>, i: nat)
    requires i < |ps| && !ps[i].fromPlayer
    ensures ps[i] in ResolveHits(ps, es).projectiles
  {
    ResolveHitsKeepsExactlyTheMisses(ps, es);
    MissedAreKept(ps, es, i);
  }

  lemma {:induction false} MissedAreKept(ps: seq<Projectile>, es: seq<Enemy>, i: nat)
    requires i < |ps| && HitIndex(ps[i], es).Miss?
    ensures ps[i] in Misses(ps, es)
    decreases |ps|
  {
    if i > 0 {
      assert ps[1..][i - 1] == ps[i];
      MissedAreKept(ps[1..], es, i - 1);
    }
  }

  // ----------------------------------------------------------------------
  // Contact with the defender
  // ----------------------------------------------------------------------

  datatype ContactOutcome = ContactOutcome(player: Defender, running: bool)

  /** The second loop, front to back: 10 damage per overlapping enemy, dead or alive. */
  function Contact(es: seq<Enemy>, d: Defender, running: bool): (r: ContactOutcome)
    ensures r.player == d.(health := r.player.health)
    decreases |es|
  {
    if |es| == 0 then ContactOutcome(d, running)
    else if Touches(es[0], d) then
      var d' := DefenderTakeDamage(d, ContactDamage);
      Contact(es[1..], d', if DefenderDead(d') then false else running)
    else
      Contact(es[1..], d, running)
  }

  /** How many enemies overlap the defender. */
  function TouchCount(es: seq<Enemy>, d: Defender): nat
    decreases |es|
  {
    if |es| == 0 then 0 else (if Touches(es[0], d) then 1 else 0) + TouchCount(es[1..], d)
  }

  lemma {:induction false} TouchCountIgnoresHealth(es: seq<Enemy>, d: Defender, h: int)
    ensures TouchCount(es, d.(health := h)) == TouchCount(es, d)
    decreases |es|
  {
    if |es| > 0 {
      TouchCountIgnoresHealth(es[1..], d, h);
    }
  }

  lemma {:induction false} TouchCountIgnoresEnemyHealth(a: seq<Enemy>, b: seq<Enemy>, d: Defender)
    requires SameBodies(a, b)
    ensures TouchCount(a, d) == TouchCount(b, d)
    decreases |a|
  {
    if |a| > 0 {
      assert b[0] == a[0].(health := b[0].health);
      assert SameBodies(a[1..], b[1..]);
      TouchCountIgnoresEnemyHealth(a[1..], b[1..], d);
    }
  }

  /**
    With `n` overlapping enemies the defender loses 10 per enemy, floored at 0
    (and keeps its health when `n` is 0); the run stops exactly when some
    contact leaves the defender dead.
   */
  lemma {:induction false} ContactOutcomeExact(es: seq<Enemy>, d: Defender, running: bool)
    ensures var n := TouchCount(es, d);
            var r := Contact(es, d, running);
            && r.player.health == (if n == 0 then d.health else Max(0, d.health - ContactDamage * n))
            && r.running == (running && !(n > 0 && DefenderDead(r.player)))
    decreases |es|
  {
    if |es| > 0 {
      if Touches(es[0], d) {
        var d' := DefenderTakeDamage(d, ContactDamage);
        ContactOutcomeExact(es[1..], d', if DefenderDead(d') then false else running);
        TouchCountIgnoresHealth(es[1..], d, d'.health);
      } else {
        ContactOutcomeExact(es[1..], d, running);
      }
    }
  }

  // ----------------------------------------------------------------------
  // The whole pass
  // ----------------------------------------------------------------------

  datatype Collided = Collided(projectiles: seq<Projectile>, enemies: seq<Enemy>, player: Defender, running: bool)

  function CheckCollisions(ps: seq<Projectile>, es: seq<Enemy>, d: Defender, running: bool): (r: Collided)
    ensures SameBodies(es, r.enemies)
    ensures r.player == d.(health := r.player.health)
    ensures r.running ==> running
  {
    var h := ResolveHits(ps, es);
    var c := Contact(h.enemies, d, running);
    ContactOutcomeExact(h.enemies, d, running);
    Collided(h.projectiles, h.enemies, c.player, c.running)
  }

  /**
    The whole collision pass: survivors are the misses, each enemy loses the
    damage aimed at it, and every enemy present at the start of the pass —
    including one this pass just killed — can deal contact damage.
   */
  lemma CheckCollisionsOutcome(ps: seq<Projectile>, es: seq<Enemy>, d: Defender, running: bool)
    ensures var r := CheckCollisions(ps, es, d, running);
            var n := TouchCount(es, d);
            && r.projectiles == Misses(ps, es)
            && (forall j :: 0 <= j < |es| ==> r.enemies[j].health == es[j].health - DamageTo(ps, es, j))
            && r.player.health == (if n == 0 then d.health else Max(0, d.health - ContactDamage * n))
            && r.running == (running && !(n > 0 && DefenderDead(r.player)))
  {
    var h := ResolveHits(ps, es);
    var r := CheckCollisions(ps, es, d, running);
    var n := TouchCount(es, d);
    assert r.projectiles == Misses(ps, es) by {
      CheckCollisionsComposes(ps, es, d, running);
      ResolveHitsKeepsExactlyTheMisses(ps, es);
    }
    assert (forall j :: 0 <= j < |es| ==> r.enemies[j].health == es[j].health - DamageTo(ps, es, j)) by {
      CheckCollisionsComposes(ps, es, d, running);
      ResolveHitsDamageAll(ps, es);
    }
    assert r.player.health == (if n == 0 then d.health else Max(0, d.health - ContactDamage * n))
           && r.running == (running && !(n > 0 && DefenderDead(r.player))) by {
      CheckCollisionsComposes(ps, es, d, running);
      TouchCountIgnoresEnemyHealth(es, h.enemies, d);
      ContactOutcomeExact(h.enemies, d, running);
    }
  }

  /** The pass is the hit loop followed by the contact loop on the enemies it leaves. */
  lemma CheckCollisionsComposes(ps: seq<Projectile>, es: seq<Enemy>, d: Defender, running: bool)
    ensures var h := ResolveHits(ps, es);
            var c := Contact(h.enemies, d, running);
            CheckCollisions(ps, es, d, running) == Collided(h.projectiles, h.enemies, c.player, c.running)
  {
  }

  lemma ResolveHitsDamageAll(ps: seq<Projectile>, es: seq<Enemy>)
    ensures var h := ResolveHits(ps, es);
            |h.enemies| == |es| && forall j :: 0 <= j < |es| ==> h.enemies[j].health == es[j].health - DamageTo(ps, es, j)
  {
    var h := ResolveHits(ps, es);
    forall j | 0 <= j < |es|
      ensures h.enemies[j].health == es[j].health - DamageTo(ps, es, j)
    {
      ResolveHitsDamage(ps, es, j);
    }
  }
}

=== FILE: combat_enemies.dfy ===
/**
  `updateEnemies` of the combat game: each enemy takes one pursuit step (the
  boss may fire its ring), then enemies whose health is at or below zero are
  removed and their point values credited to the score.
 */
module EnemySystem {
  import opened CombatEntities

  /**
    The attack cooldown after this tick's countdown: it runs down only while
    positive, so it is never raised by a non-negative tick, and once at or below
    zero it stays where it is (it is not reset to zero).
   */
  function CooledDown(e: Enemy, dt: real): (r: real)
    ensures dt >= 0.0 ==> r <= e.attackCooldown
    ensures e.attackCooldown <= 0.0 ==> r == e.attackCooldown
    ensures e.attackCooldown > 0.0 ==> r == e.attackCooldown - dt
  {
    if e.attackCooldown > 0.0 then e.attackCooldown - dt else e.attackCooldown
  }

  /** Once a countdown reaches zero or below, later ticks leave it alone until the boss fires. */
  lemma CooldownSettles(e: Enemy, dt: real, dt': real)
    requires CooledDown(e, dt) <= 0.0
    ensures CooledDown(e.(attackCooldown := CooledDown(e, dt)), dt') == CooledDown(e, dt)
  {
  }

  /** Whether `e` fires its ring this tick; the range is measured before the pursuit step. */
  predicate BossFires(e: Enemy, dt: real, target: Point): (r: bool)
    ensures e.kind != Boss ==> !r
    ensures e.kind == Boss && CooledDown(e, dt) <= 0.0 && target == EnemyCenter(e) ==> r
    ensures r ==> Sq(target.x - EnemyCenter(e).x) < Sq(BossRange)
  {
    e.kind == Boss && CooledDown(e, dt) <= 0.0 && Dist2(target, EnemyCenter(e)) < Sq(BossRange)
  }

  /** `performBossAttack`: eight hostile shots from the boss's (moved) centre. */
  function BossRing(e: Enemy, trig: Trig): (r: seq<Projectile>)
    ensures |r| == BossRingSize
    ensures forall q :: q in r ==> !q.fromPlayer && q.damage == BossShotDamage
  {
    var ox := e.x + (HalfSize(e) - ProjectileHalf) as real;
    var oy := e.y + (HalfSize(e) - ProjectileHalf) as real;
    seq(BossRingSize, i requires 0 <= i < BossRingSize =>
      Projectile(ox, oy, trig.ring(i).x, trig.ring(i).y, BossShotDamage, false))
  }

  datatype EnemyStep = EnemyStep(enemy: Enemy, fired: seq<Projectile>)

  /**
    `Enemy.update`: pursuit (skipped at distance zero), the cooldown countdown
    and the boss's ring attack. Health and archetype are never touched.
   */
  function StepEnemy(e: Enemy, dt: real, target: Point, trig: Trig): (r: EnemyStep)
    ensures r.enemy.kind == e.kind && r.enemy.health == e.health
    ensures BossFires(e, dt, target) ==> |r.fired| == BossRingSize && r.enemy.attackCooldown == BossReload
    ensures !BossFires(e, dt, target) ==> r.fired == [] && r.enemy.attackCooldown == CooledDown(e, dt)
    ensures Dist2(target, EnemyCenter(e)) == 0.0 ==> r.enemy.x == e.x && r.enemy.y == e.y
    ensures forall q :: q in r.fired ==> !q.fromPlayer && q.damage == BossShotDamage
  {
    var moved :=
      if Dist2(target, EnemyCenter(e)) > 0.0 then
        var c := trig.pursue(e, target);
        e.(x := c.x, y := c.y)
      else e;
    if BossFires(e, dt, target) then
      EnemyStep(moved.(attackCooldown := BossReload), BossRing(moved, trig))
    else
      EnemyStep(moved.(attackCooldown := CooledDown(e, dt)), [])
  }

  datatype EnemyPass = EnemyPass(enemies: seq<Enemy>, fired: seq<Projectile>, points: int)

  /**
    The Java loop, from the back of the list: step the enemy, then remove it
    and credit its points if it is dead. Shots are appended in visiting order.
   */
  function UpdateEnemies(es: seq<Enemy>, dt: real, target: Point, trig: Trig): (r: EnemyPass)
    ensures r.points >= 0
    ensures |r.enemies| <= |es|
    ensures forall e :: e in r.enemies ==> !EnemyDead(e)
    ensures forall q :: q in r.fired ==> !q.fromPlayer && q.damage == BossShotDamage
    decreases |es|
  {
    if |es| == 0 then EnemyPass([], [], 0)
    else
      var last := |es| - 1;
      var s := StepEnemy(es[last], dt, target, trig);
      var rest := UpdateEnemies(es[..last], dt, target, trig);
      if EnemyDead(s.enemy) then
        EnemyPass(rest.enemies, s.fired + rest.fired, PointValue(s.enemy) + rest.points)
      else
        EnemyPass(rest.enemies + [s.enemy], s.fired + rest.fired, rest.points)
  }

  /** The enemies that are alive, in order. */
  function Living(es: seq<Enemy>): (r: seq<Enemy>)
    decreases |es|
  {
    if |es| == 0 then []
    else (if EnemyDead(es[0]) then [] else [es[0]]) + Living(es[1..])
  }

  /** The points the dead enemies of `es` are worth. */
  function Bounty(es: seq<Enemy>): (r: int)
    decreases |es|
  {
    if |es| == 0 then 0
    else (if EnemyDead(es[0]) then PointValue(es[0]) else 0) + Bounty(es[1..])
  }

  lemma {:induction false} BountyNonNegative(es: seq<Enemy>)
    ensures Bounty(es) >= 0
    decreases |es|
  {
    if |es| > 0 {
      BountyNonNegative(es[1..]);
    }
  }

  /** Every archetype is worth points, so the bounty is zero exactly when no enemy is dead. */
  lemma {:induction false} NoDeadNoBounty(es: seq<Enemy>)
    ensures Bounty(es) == 0 <==> forall e :: e in es ==> !EnemyDead(e)
    decreases |es|
  {
    if |es| > 0 {
      NoDeadNoBounty(es[1..]);
      BountyNonNegative(es[1..]);
      assert forall e :: e in es <==> e == es[0] || e in es[1..];
    }
  }

  lemma {:induction false} LivingSnoc(es: seq<Enemy>, e: Enemy)
    ensures Living(es + [e]) == Living(es) + (if EnemyDead(e) then [] else [e])
    decreases |es|
  {
    if |es| == 0 {
      assert es + [e] == [e];
      assert [e][1..] == [];
    } else {
      assert (es + [e])[1..] == es[1..] + [e];
      LivingSnoc(es[1..], e);
    }
  }

  lemma {:induction false} BountySnoc(es: seq<Enemy>, e: Enemy)
    ensures Bounty(es + [e]) == Bounty(es) + (if EnemyDead(e) then PointValue(e) else 0)
    decreases |es|
  {
    if |es| == 0 {
      assert es + [e] == [e];
      assert [e][1..] == [];
    } else {
      assert (es + [e])[1..] == es[1..] + [e];
      BountySnoc(es[1..], e);
    }
  }

  /**
    The pass removes exactly the dead enemies: what is left is the living
    enemies, in their original order, each after its step; the score gained is
    the total point value of the dead ones.
   */
  lemma {:induction false} UpdateEnemiesRemovesExactlyTheDead(es: seq<Enemy>, dt: real, target: Point, trig: Trig)
    ensures var r := UpdateEnemies(es, dt, target, trig);
            && |r.enemies| == |Living(es)|
            && (forall i :: 0 <= i < |r.enemies| ==> r.enemies[i] == StepEnemy(Living(es)[i], dt, target, trig).enemy)
            && r.points == Bounty(es)
    decreases |es|
  {
    if |es| > 0 {
      var last := |es| - 1;
      assert es == es[..last] + [es[last]];
      UpdateEnemiesRemovesExactlyTheDead(es[..last], dt, target, trig);
      LivingSnoc(es[..last], es[last]);
      BountySnoc(es[..last], es[last]);
    }
  }

  /** The score never goes down in this pass: it grows by the bounty, which is never negative. */
  lemma UpdateEnemiesScoreGain(es: seq<Enemy>, dt: real, target: Point, trig: Trig)
    ensures UpdateEnemies(es, dt, target, trig).points == Bounty(es) >= 0
  {
    UpdateEnemiesRemovesExactlyTheDead(es, dt, target, trig);
    BountyNonNegative(es);
  }
}

=== FILE: combat_entities.dfy ===
/**
  The records of the JavaFX combat game (`CombatGame` in enemy_system.java):
  the defender, the three enemy archetypes, enemies and projectiles, together
  with the per-entity rules — defender movement, the four-way shot, damage
  intake and the two distance tests.

  Every `Math.sqrt(dx*dx + dy*dy) < r` in `enemy_system.java` is written here as the
  equivalent `dx*dx + dy*dy < r*r`; all radii involved are non-negative.
 */
module CombatEntities {
  import opened JavaInt

  // Arena and defender constants.
  const Width: int := 1000
  const Height: int := 700
  const PlayerSize: int := 40
  const PlayerSpeed: int := 5
  /** Largest defender coordinates that keep the whole square inside the arena. */
  const MaxX: int := Width - PlayerSize
  const MaxY: int := Height - PlayerSize
  /** The defender's spawn corner, centred in the arena (integer division). */
  const StartX: int := Width / 2 - PlayerSize / 2
  const StartY: int := Height / 2 - PlayerSize / 2
  const StartHealth: int := 100

  // Shooting.
  const ShotCooldown: real := 0.3
  /** What `Player.update` subtracts from the shot cooldown per call, whatever the frame's real length. */
  const FrameTime: real := 0.016
  const ShotDamage: int := 10
  const ShotSpeed: real := 8.0
  /** Projectiles are 10x10 squares; distance tests use their centre, 5 units in. */
  const ProjectileHalf: int := 5

  // Enemy behaviour.
  /** Contact damage is a literal in `checkCollisions`, not the archetype's contactDamage. */
  const ContactDamage: int := 10
  /** The boss's trigger range is a literal, not the archetype's attackRange. */
  const BossRange: real := 300.0
  const BossReload: real := 3.0
  const BossShotDamage: int := 15
  const BossRingSize: nat := 8

  /** Projectiles further than this outside the arena are discarded. */
  const OffScreenMargin: int := 50

  datatype Point = Point(x: real, y: real)

  /** The four movement keys W, A, S, D held during a tick. */
  datatype Keys = Keys(up: bool, left: bool, down: bool, right: bool)

  /** A square is never negative, so a squared-distance test is as strict as the distance test it replaces. */
  function Sq(v: real): (r: real)
    ensures r >= 0.0
  {
    v * v
  }

  /** Squared distance between two points. */
  function Dist2(a: Point, b: Point): real
  {
    Sq(a.x - b.x) + Sq(a.y - b.y)
  }

  // ----------------------------------------------------------------------
  // Defender (`Player` in enemy_system.java)
  // ----------------------------------------------------------------------

  /** The defender's top-left corner is integral: it starts at integers, moves by 5 and is clamped to integers. */
  datatype Defender = Defender(x: int, y: int, health: int, shootCooldown: real)

  function NewDefender(x: int, y: int): (d: Defender)
    ensures d.health == StartHealth && d.shootCooldown == 0.0
    ensures d.x == x && d.y == y
  {
    Defender(x, y, StartHealth, 0.0)
  }

  /** `getX()`/`getY()`: the centre of the 40x40 square. */
  function Center(d: Defender): Point
  {
    Point((d.x + PlayerSize / 2) as real, (d.y + PlayerSize / 2) as real)
  }

  predicate InArena(d: Defender)
  {
    0 <= d.x <= MaxX && 0 <= d.y <= MaxY
  }

  predicate DefenderDead(d: Defender)
  {
    d.health <= 0
  }

  /** One coordinate after the key pair (towards smaller, towards larger) is applied. */
  function Displace(v: int, minus: bool, plus: bool): int
  {
    v - (if minus then PlayerSpeed else 0) + (if plus then PlayerSpeed else 0)
  }

  /** `Math.max(0, Math.min(hi, v))`. */
  function ClampAxis(v: int, hi: int): (r: int)
    requires hi >= 0
    ensures 0 <= r <= hi
    ensures 0 <= v <= hi ==> r == v
    ensures v < 0 ==> r == 0
    ensures v > hi ==> r == hi
  {
    Max(0, Min(hi, v))
  }

  /** `Player.update(w, a, s, d)`: move, clamp into the arena, count the shot cooldown down. */
  function MoveDefender(d: Defender, k: Keys): (r: Defender)
    ensures InArena(r)
    ensures r.health == d.health
    ensures d.shootCooldown > 0.0 ==> r.shootCooldown == d.shootCooldown - FrameTime
    ensures d.shootCooldown <= 0.0 ==> r.shootCooldown == d.shootCooldown
  {
    var x := ClampAxis(Displace(d.x, k.left, k.right), MaxX);
    var y := ClampAxis(Displace(d.y, k.up, k.down), MaxY);
    var cd := if d.shootCooldown > 0.0 then d.shootCooldown - FrameTime else d.shootCooldown;
    Defender(x, y, d.health, cd)
  }

  function Abs(v: int): nat { if v < 0 then -v else v }

  /** The clamped coordinate is the arena position nearest to where the keys would have put the defender. */
  lemma MoveIsNearestInArena(d: Defender, k: Keys, vx: int, vy: int)
    requires 0 <= vx <= MaxX && 0 <= vy <= MaxY
    ensures var tx := Displace(d.x, k.left, k.right);
            Abs(MoveDefender(d, k).x - tx) <= Abs(vx - tx)
    ensures var ty := Displace(d.y, k.up, k.down);
            Abs(MoveDefender(d, k).y - ty) <= Abs(vy - ty)
  {
  }

  /** Opposite keys cancel: a defender inside the arena keeps that coordinate. */
  lemma OppositeKeysCancel(d: Defender, k: Keys)
    requires InArena(d)
    ensures k.left == k.right ==> MoveDefender(d, k).x == d.x
    ensures k.up == k.down ==> MoveDefender(d, k).y == d.y
  {
  }

  /** Away from the walls a held key moves the defender by exactly the speed, on its own axis only. */
  lemma SingleKeyStep(d: Defender)
    requires PlayerSpeed <= d.x <= MaxX - PlayerSpeed && PlayerSpeed <= d.y <= MaxY - PlayerSpeed
    ensures MoveDefender(d, Keys(false, true, false, false)).x == d.x - PlayerSpeed
    ensures MoveDefender(d, Keys(false, false, false, true)).x == d.x + PlayerSpeed
    ensures MoveDefender(d, Keys(true, false, false, false)).y == d.y - PlayerSpeed
    ensures MoveDefender(d, Keys(false, false, true, false)).y == d.y + PlayerSpeed
    ensures MoveDefender(d, Keys(false, true, false, false)).y == d.y
    ensures MoveDefender(d, Keys(true, false, false, false)).x == d.x
    ensures MoveDefender(d, Keys(false, false, false, true)).y == d.y
    ensures MoveDefender(d, Keys(false, false, true, false)).x == d.x
  {
  }

  /** `Player.takeDamage`: subtract, then floor at zero. */
  function DefenderTakeDamage(d: Defender, amount: int): (r: Defender)
    ensures r.health >= 0
    ensures r.health == d.health - amount || (r.health == 0 && d.health - amount < 0)
    ensures r.x == d.x && r.y == d.y && r.shootCooldown == d.shootCooldown
  {
    d.(health := Max(0, d.health - amount))
  }

  /**
    `Player.isDead` after `takeDamage`: a hit kills exactly when it is at least
    the remaining health, and a dead defender stays dead under any further
    non-negative hit.
   */
  lemma DefenderDeathThreshold(d: Defender, amount: int)
    ensures DefenderDead(DefenderTakeDamage(d, amount)) <==> amount >= d.health
    ensures DefenderDead(d) && amount >= 0 ==> DefenderDead(DefenderTakeDamage(d, amount))
    ensures DefenderDead(DefenderTakeDamage(d, amount)) ==> DefenderTakeDamage(d, amount).health == 0
  {
  }

  // ----------------------------------------------------------------------
  // Projectiles
  // ----------------------------------------------------------------------

  /** A 10x10 projectile; `fromPlayer` decides whether it can hit enemies. The colour is not modelled. */
  datatype Projectile = Projectile(x: real, y: real, vx: real, vy: real, damage: int, fromPlayer: bool)

  /** `Projectile.update`: one velocity step per tick; the tick length is ignored. */
  function Advance(p: Projectile): Projectile
  {
    p.(x := p.x + p.vx, y := p.y + p.vy)
  }

  /** `isOffScreen(WIDTH, HEIGHT)`. */
  predicate OffScreen(p: Projectile): (r: bool)
    ensures r <==> !InFlightBand(p)
  {
    p.x < (-OffScreenMargin) as real || p.x > (Width + OffScreenMargin) as real
    || p.y < (-OffScreenMargin) as real || p.y > (Height + OffScreenMargin) as real
  }

  /** The band a projectile must stay in to survive pruning. */
  predicate InFlightBand(p: Projectile)
  {
    (-OffScreenMargin) as real <= p.x <= (Width + OffScreenMargin) as real
    && (-OffScreenMargin) as real <= p.y <= (Height + OffScreenMargin) as real
  }


  /** The four shots of one volley, in the order they are appended: up, down, left, right. */
  function Volley(d: Defender): (r: seq<Projectile>)
    ensures |r| == 4
    ensures forall i :: 0 <= i < 4 ==> r[i].fromPlayer && r[i].damage == ShotDamage
    ensures r[0].vx == 0.0 && r[0].vy == -ShotSpeed
    ensures r[1].vx == 0.0 && r[1].vy == ShotSpeed
    ensures r[2].vx == -ShotSpeed && r[2].vy == 0.0
    ensures r[3].vx == ShotSpeed && r[3].vy == 0.0
    ensures r[0].x == d.x as real + 15.0 && r[0].y == d.y as real
    ensures r[1].x == d.x as real + 15.0 && r[1].y == d.y as real + 40.0
    ensures r[2].x == d.x as real && r[2].y == d.y as real + 15.0
    ensures r[3].x == d.x as real + 40.0 && r[3].y == d.y as real + 15.0
  {
    var x := d.x as real;
    var y := d.y as real;
    var size := PlayerSize as real;
    var mid := (PlayerSize / 2 - ProjectileHalf) as real;
    [ Projectile(x + mid, y, 0.0, -ShotSpeed, ShotDamage, true),
      Projectile(x + mid, y + size, 0.0, ShotSpeed, ShotDamage, true),
      Projectile(x, y + mid, -ShotSpeed, 0.0, ShotDamage, true),
      Projectile(x + size, y + mid, ShotSpeed, 0.0, ShotDamage, true) ]
  }

  datatype Shot = Shot(shooter: Defender, projectiles: seq<Projectile>)

  /** `Player.shoot`: gated by the cooldown; a shot appends four projectiles and reloads. */
  function Shoot(d: Defender, ps: seq<Projectile>): (r: Shot)
    ensures d.shootCooldown <= 0.0 ==>
              && |r.projectiles| == |ps| + 4
              && r.projectiles[..|ps|] == ps
              && r.projectiles[|ps|..] == Volley(d)
              && r.shooter == d.(shootCooldown := ShotCooldown)
    ensures d.shootCooldown > 0.0 ==> r == Shot(d, ps)
  {
    if d.shootCooldown <= 0.0 then
      var ps' := ps + Volley(d);
      assert ps'[..|ps|] == ps && ps'[|ps|..] == Volley(d);
      Shot(d.(shootCooldown := ShotCooldown), ps')
    else
      Shot(d, ps)
  }

  // ----------------------------------------------------------------------
  // Enemy archetypes (`EnemyType`)
  // ----------------------------------------------------------------------

  /** One row of the archetype table; colours are not modelled. */
  datatype Archetype = Archetype(
    health: int, size: int, speed: real, contactDamage: int,
    attackDamage: int, pointValue: int, attackRange: int)

  datatype EnemyType = Basic | Strong | Boss

  function Stats(t: EnemyType): (a: Archetype)
    ensures a.health > 0 && a.size > 0 && a.pointValue > 0
  {
    match t
    case Basic => Archetype(30, 30, 2.0, 10, 5, 50, 100)
    case Strong => Archetype(80, 40, 1.5, 20, 10, 100, 200)
    case Boss => Archetype(200, 60, 1.0, 30, 20, 500, 1000)
  }

  /** The archetypes are ranked: each tier is tougher, bigger, slower, hits harder and is worth more than the one before. */
  lemma ArchetypesRanked()
    ensures Stats(Basic).health < Stats(Strong).health < Stats(Boss).health
    ensures Stats(Basic).size < Stats(Strong).size < Stats(Boss).size
    ensures Stats(Basic).speed > Stats(Strong).speed > Stats(Boss).speed > 0.0
    ensures Stats(Basic).contactDamage < Stats(Strong).contactDamage < Stats(Boss).contactDamage
    ensures Stats(Basic).pointValue < Stats(Strong).pointValue < Stats(Boss).pointValue
    ensures Stats(Basic).attackRange < Stats(Strong).attackRange < Stats(Boss).attackRange
  {
  }

  // ----------------------------------------------------------------------
  // Enemies
  // ----------------------------------------------------------------------

  /** An enemy: `(x, y)` is its top-left corner; health may go negative before it is pruned. */
  datatype Enemy = Enemy(kind: EnemyType, x: real, y: real, health: int, attackCooldown: real)

  /** The `Enemy(type, x, y)` constructor. */
  function NewEnemy(kind: EnemyType, at: Point): (e: Enemy)
    ensures e.kind == kind && e.x == at.x && e.y == at.y
    ensures e.health == Stats(kind).health && e.attackCooldown == 0.0
    ensures !EnemyDead(e)
  {
    Enemy(kind, at.x, at.y, Stats(kind).health, 0.0)
  }

  /** `type.size / 2`, an integer division as in `enemy_system.java`. */
  function HalfSize(e: Enemy): int
  {
    Stats(e.kind).size / 2
  }

  /** `getX()`/`getY()`. */
  function EnemyCenter(e: Enemy): Point
  {
    Point(e.x + HalfSize(e) as real, e.y + HalfSize(e) as real)
  }

  predicate EnemyDead(e: Enemy)
  {
    e.health <= 0
  }

  /** `getPointValue()`: the archetype's bounty, always a reward. */
  function PointValue(e: Enemy): (r: int)
    ensures r > 0
    ensures Stats(Basic).pointValue <= r <= Stats(Boss).pointValue
  {
    Stats(e.kind).pointValue
  }

  /** `Enemy.takeDamage`: plain subtraction, no floor. */
  function EnemyTakeDamage(e: Enemy, amount: int): (r: Enemy)
    ensures r.health == e.health - amount
    ensures r == e.(health := r.health)
  {
    e.(health := e.health - amount)
  }

  /**
    `Enemy.isDead` after `takeDamage`: a hit kills exactly when it is at least
    the remaining health; a fresh enemy needs at least its archetype's health
    in damage.
   */
  lemma EnemyDeathThreshold(e: Enemy, amount: int)
    ensures EnemyDead(EnemyTakeDamage(e, amount)) <==> amount >= e.health
    ensures EnemyDead(e) && amount >= 0 ==> EnemyDead(EnemyTakeDamage(e, amount))
    ensures forall k: EnemyType, at: Point :: amount < Stats(k).health ==> !EnemyDead(EnemyTakeDamage(NewEnemy(k, at), amount))
  {
  }

  /** `Enemy.collidesWith(Player)`: centre distance below the sum of the half sizes. */
  predicate Touches(e: Enemy, d: Defender): (r: bool)
    ensures EnemyCenter(e) == Center(d) ==> r
  {
    var r := (HalfSize(e) + PlayerSize / 2) as real;
    assert r == 35.0 || r == 40.0 || r == 50.0;
    Dist2(EnemyCenter(e), Center(d)) < Sq(r)
  }

  /**
    Contact is a test on positions only: each axis gap is below the combined
    half sizes, and neither side's health or cooldown matters.
   */
  lemma TouchesIsNearby(e: Enemy, d: Defender, h: int, k: int)
    ensures Touches(e, d) ==> Sq(EnemyCenter(e).x - Center(d).x) < Sq((HalfSize(e) + PlayerSize / 2) as real)
    ensures Touches(e, d) ==> Sq(EnemyCenter(e).y - Center(d).y) < Sq((HalfSize(e) + PlayerSize / 2) as real)
    ensures Touches(e.(health := h), d.(health := k)) == Touches(e, d)
  {
  }

  /** `Projectile.collidesWith(Enemy)`: only the defender's shots can hit. */
  predicate Hits(p: Projectile, e: Enemy): (r: bool)
    ensures r ==> p.fromPlayer
    ensures r ==> Sq(p.x + ProjectileHalf as real - EnemyCenter(e).x) < Sq((ProjectileHalf + HalfSize(e)) as real)
    ensures p.fromPlayer && Point(p.x + ProjectileHalf as real, p.y + ProjectileHalf as real) == EnemyCenter(e) ==> r
  {
    var r := (ProjectileHalf + HalfSize(e)) as real;
    p.fromPlayer
    && Dist2(Point(p.x + ProjectileHalf as real, p.y + ProjectileHalf as real), EnemyCenter(e)) < Sq(r)
  }

  lemma EnemyShotsNeverHit(p: Projectile, e: Enemy)
    requires !p.fromPlayer
    ensures !Hits(p, e)
  {
  }

  // ----------------------------------------------------------------------
  // What `enemy_system.java` computes with Math.sqrt, Math.cos and Math.sin
  // ----------------------------------------------------------------------

  /**
    Supplied by the caller instead of computed:
    `pursue(e, target)` is the top-left corner of `e` after one pursuit step toward `target`;
    `ring(i)` is the velocity of the i-th shot of the boss's eight-way ring;
    `place(wave, i)` is the top-left corner of the i-th ring-placed enemy of a wave.
   */
  datatype Trig = Trig(pursue: (Enemy, Point) -> Point, ring: nat -> Point, place: (int, nat) -> Point)
}

=== FILE: combat_game.dfy ===
/**
  One tick of the JavaFX combat game (`CombatGame.update`), the `gameRunning`
  gate of the frame loop, and `restartGame`.
 */
module CombatGame {
  import opened CombatEntities
  import opened ProjectileSystem
  import opened EnemySystem
  import opened CollisionSystem
  import opened WaveSystem

  /** The simulation state of the `CombatGame` object in `enemy_system.java`. */
  datatype Game = Game(
    player: Defender,
    enemies: seq<Enemy>,
    projectiles: seq<Projectile>,
    running: bool,
    score: int,
    wave: WaveState)

  /** The key flags the input handlers maintain: W, A, S, D and SPACE. */
  datatype Controls = Controls(keys: Keys, fire: bool)

  /** The state after the field initialisers and `start`: defender centred, nothing spawned, wave 0 pending. */
  function Launch(): (g: Game)
    ensures g.player.x == 480 && g.player.y == 330
  {
    Game(NewDefender(StartX, StartY), [], [], true, 0, FirstWait)
  }

  /** `restartGame`. */
  function RestartGame(g: Game): (r: Game)
    ensures r.player == Defender(480, 330, 100, 0.0)
    ensures r.enemies == [] && r.projectiles == []
    ensures r.running && r.score == 0
    ensures r.wave == WaveState(0, true, 2.0)
  {
    Game(NewDefender(StartX, StartY), [], [], true, 0, WaveState(0, true, WaveDelay))
  }

  /** The R key: a restart happens only after the run has ended. */
  function PressRestart(g: Game): (r: Game)
    ensures g.running ==> r == g
    ensures !g.running ==> r == RestartGame(g)
  {
    if !g.running then RestartGame(g) else g
  }

  /** `update(deltaTime)`: the seven phases in the Java code's order. */
  function Update(g: Game, c: Controls, dt: real, trig: Trig): (r: Game)
    ensures r.score == g.score + Bounty(g.enemies) && r.score >= g.score
    ensures InArena(r.player)
    ensures r.player.x == MoveDefender(g.player, c.keys).x && r.player.y == MoveDefender(g.player, c.keys).y
    ensures r.wave.current >= g.wave.current
  {
    var moved := MoveDefender(g.player, c.keys);
    var shot := if c.fire then Shoot(moved, g.projectiles) else Shot(moved, g.projectiles);
    var flying := Surviving(shot.projectiles);
    var pass := UpdateEnemies(g.enemies, dt, Center(shot.shooter), trig);
    UpdateEnemiesScoreGain(g.enemies, dt, Center(shot.shooter), trig);
    var waves := UpdateWaveSystem(g.wave, pass.enemies, dt, g.running, trig);
    var hit := CheckCollisions(flying + pass.fired, waves.enemies, shot.shooter, waves.running);
    Game(hit.player, hit.enemies, hit.projectiles, hit.running, g.score + pass.points, waves.wave)
  }

  /** One frame of the animation loop: the tick runs only while the game is running. */
  function Frame(g: Game, c: Controls, dt: real, trig: Trig): (r: Game)
    ensures !g.running ==> r == g
    ensures r.score >= g.score && r.wave.current >= g.wave.current
    ensures InArena(g.player) ==> InArena(r.player)
  {
    if g.running then Update(g, c, dt, trig) else g
  }

  /** The invariants a run keeps from launch or restart onward. */
  predicate Valid(g: Game)
  {
    && InArena(g.player)
    && 0 <= g.player.health <= StartHealth
    && (g.running ==> !DefenderDead(g.player))
    && g.score >= 0
    && Coherent(g.wave)
    && (forall e :: e in g.enemies ==> e.health <= Stats(e.kind).health)
    && (forall p :: p in g.projectiles ==> p.damage >= 0)
  }

  /** A restart gives exactly the state of a freshly launched game, whatever state it started from. */
  lemma RestartIsFreshLaunch(g: Game)
    ensures RestartGame(g) == Launch()
    ensures Valid(Launch())
  {
  }

  /**
    The score across one frame, stated exactly: a running game gains the bounty
    of the enemies already dead when the frame starts, a stopped one gains
    nothing; in particular a frame with no dead enemies leaves the score alone.
   */
  lemma FrameScore(g: Game, c: Controls, dt: real, trig: Trig)
    ensures Frame(g, c, dt, trig).score == g.score + (if g.running then Bounty(g.enemies) else 0)
    ensures (forall e :: e in g.enemies ==> !EnemyDead(e)) ==> Frame(g, c, dt, trig).score == g.score
  {
    NoDeadNoBounty(g.enemies);
  }

  /** A dead defender freezes the game: in a valid state it means the run has ended. */
  lemma DeadDefenderFreezes(g: Game, c: Controls, dt: real, trig: Trig)
    requires Valid(g) && DefenderDead(g.player)
    ensures Frame(g, c, dt, trig) == g
  {
  }

  lemma {:induction false} DamageToNonNegative(ps: seq<Projectile>, es: seq<Enemy>, j: nat)
    requires forall p :: p in ps ==> p.damage >= 0
    ensures DamageTo(ps, es, j) >= 0
    decreases |ps|
  {
    if |ps| > 0 {
      assert ps[0] in ps;
      assert forall p :: p in ps[1..] ==> p in ps;
      DamageToNonNegative(ps[1..], es, j);
    }
  }

  /** Every frame keeps the run's invariants. */
  lemma FramePreservesValid(g: Game, c: Controls, dt: real, trig: Trig)
    requires Valid(g)
    ensures Valid(Frame(g, c, dt, trig))
  {
    if g.running {
      var moved := MoveDefender(g.player, c.keys);
      var shot := if c.fire then Shoot(moved, g.projectiles) else Shot(moved, g.projectiles);
      ShotDamages(moved, g.projectiles, c.fire);
      var flying := Surviving(shot.projectiles);
      SurvivingDamages(shot.projectiles);
      var pass := UpdateEnemies(g.enemies, dt, Center(shot.shooter), trig);
      UpdateEnemiesScoreGain(g.enemies, dt, Center(shot.shooter), trig);
      UpdateEnemiesKeepsHealthBound(g.enemies, dt, Center(shot.shooter), trig);
      var waves := UpdateWaveSystem(g.wave, pass.enemies, dt, g.running, trig);
      UpdateWaveSystemKeepsCoherent(g.wave, pass.enemies, dt, g.running, trig);
      WaveEnemiesBounded(g.wave, pass.enemies, dt, g.running, trig);
      var ps := flying + pass.fired;
      var hit := CheckCollisions(ps, waves.enemies, shot.shooter, waves.running);
      CollisionsKeepBounds(ps, waves.enemies, shot.shooter, waves.running);
      var r := Game(hit.player, hit.enemies, hit.projectiles, hit.running, g.score + pass.points, waves.wave);
      assert Frame(g, c, dt, trig) == r;
      assert InArena(r.player);
    }
  }

  lemma ShotDamages(d: Defender, ps: seq<Projectile>, fire: bool)
    requires forall p :: p in ps ==> p.damage >= 0
    ensures forall p :: p in (if fire then Shoot(d, ps) else Shot(d, ps)).projectiles ==> p.damage >= 0
    ensures var s := if fire then Shoot(d, ps) else Shot(d, ps);
            s.shooter.x == d.x && s.shooter.y == d.y && s.shooter.health == d.health
  {
    if fire && d.shootCooldown <= 0.0 {
      var qs := Shoot(d, ps).projectiles;
      forall p | p in qs
        ensures p.damage >= 0
      {
        var i :| 0 <= i < |qs| && qs[i] == p;
        if i < |ps| {
          assert qs[..|ps|][i] == p;
        } else {
          assert qs[|ps|..][i - |ps|] == p;
        }
      }
    }
  }

  /** The collision pass keeps enemy health at or below its archetype's maximum and the defender in [0, 100], alive while running. */
  lemma CollisionsKeepBounds(ps: seq<Projectile>, es: seq<Enemy>, d: Defender, running: bool)
    requires forall p :: p in ps ==> p.damage >= 0
    requires forall e :: e in es ==> e.health <= Stats(e.kind).health
    requires 0 <= d.health <= StartHealth && (running ==> !DefenderDead(d))
    ensures var hit := CheckCollisions(ps, es, d, running);
            && (forall e :: e in hit.enemies ==> e.health <= Stats(e.kind).health)
            && (forall p :: p in hit.projectiles ==> p.damage >= 0)
            && 0 <= hit.player.health <= StartHealth
            && (hit.running ==> !DefenderDead(hit.player))
  {
    var hit := CheckCollisions(ps, es, d, running);
    CheckCollisionsOutcome(ps, es, d, running);
    forall e | e in hit.enemies
      ensures e.health <= Stats(e.kind).health
    {
      var j :| 0 <= j < |hit.enemies| && hit.enemies[j] == e;
      DamageToNonNegative(ps, es, j);
      assert hit.enemies[j] == es[j].(health := hit.enemies[j].health);
      assert es[j] in es;
    }
    MissesAreDrawnFrom(ps, es);
  }

  lemma {:induction false} SurvivingDamages(ps: seq<Projectile>)
    requires forall p :: p in ps ==> p.damage >= 0
    ensures forall q :: q in Surviving(ps) ==> q.damage >= 0
    decreases |ps|
  {
    if |ps| > 0 {
      assert ps[0] in ps;
      assert forall p :: p in ps[1..] ==> p in ps;
      SurvivingDamages(ps[1..]);
    }
  }

  lemma {:induction false} MissesAreDrawnFrom(ps: seq<Projectile>, es: seq<Enemy>)
    ensures forall q :: q in Misses(ps, es) ==> q in ps
    decreases |ps|
  {
    if |ps| > 0 {
      MissesAreDrawnFrom(ps[1..], es);
      assert forall q :: q in ps[1..] ==> q in ps;
    }
  }

  lemma UpdateEnemiesKeepsHealthBound(es: seq<Enemy>, dt: real, target: Point, trig: Trig)
    requires forall e :: e in es ==> e.health <= Stats(e.kind).health
    ensures forall e :: e in UpdateEnemies(es, dt, target, trig).enemies ==> e.health <= Stats(e.kind).health
  {
    var r := UpdateEnemies(es, dt, target, trig);
    UpdateEnemiesRemovesExactlyTheDead(es, dt, target, trig);
    LivingDrawnFrom(es);
    forall e | e in r.enemies
      ensures e.health <= Stats(e.kind).health
    {
      var i :| 0 <= i < |r.enemies| && r.enemies[i] == e;
      assert Living(es)[i] in Living(es);
    }
  }

  lemma {:induction false} LivingDrawnFrom(es: seq<Enemy>)
    ensures forall e :: e in Living(es) ==> e in es
    decreases |es|
  {
    if |es| > 0 {
      LivingDrawnFrom(es[1..]);
      assert forall e :: e in es[1..] ==> e in es;
    }
  }

  lemma WaveEnemiesBounded(w: WaveState, es: seq<Enemy>, dt: real, running: bool, trig: Trig)
    requires forall e :: e in es ==> e.health <= Stats(e.kind).health
    ensures forall e :: e in UpdateWaveSystem(w, es, dt, running, trig).enemies ==> e.health <= Stats(e.kind).health
  {
  }

  /**
    A worked kill across two consecutive ticks: the defender centred at (500, 350), one Basic enemy centred
    at (500, 50) and a 30-damage shot on the enemy's centre. The collision pass
    removes the shot and takes the enemy to 0; the next enemy pass prunes it
    for 50 points, and the empty list sends the wave controller to Cooldown.
   */
  lemma KillScenario(dt: real, trig: Trig)
    ensures var d := Defender(480, 330, 100, 0.0);
            var e := NewEnemy(Basic, Point(485.0, 35.0));
            var hit := CheckCollisions([Projectile(495.0, 45.0, 0.0, 0.0, 30, true)], [e], d, true);
            var pass := UpdateEnemies(hit.enemies, dt, Center(d), trig);
            var waves := UpdateWaveSystem(WaveState(1, false, WaveDelay), pass.enemies, dt, true, trig);
            && hit.projectiles == [] && |hit.enemies| == 1 && hit.enemies[0].health == 0
            && hit.player == d && hit.running
            && pass.enemies == [] && pass.points == 50
            && waves.wave == WaveState(1, true, WaveDelay) && waves.running
  {
    var d := Defender(480, 330, 100, 0.0);
    var e := NewEnemy(Basic, Point(485.0, 35.0));
    var p := Projectile(495.0, 45.0, 0.0, 0.0, 30, true);
    assert Hits(p, e);
    assert !Touches(e, d);
    CheckCollisionsOutcome([p], [e], d, true);
    var hit := CheckCollisions([p], [e], d, true);
    assert TouchCount([e], d) == 0;
    assert HitIndex(p, [e]) == HitAt(0);
    assert DamageTo([p], [e], 0) == 30;
    assert Misses([p], [e]) == [];
    UpdateEnemiesRemovesExactlyTheDead(hit.enemies, dt, Center(d), trig);
  }
}

=== FILE: combat_projectiles.dfy ===
/**
  `updateProjectiles` of the combat game: every projectile takes one velocity
  step and those that end up off screen are discarded.
 */
module ProjectileSystem {
  import opened CombatEntities

  /**
    Reference definition of the pass, front to back: the advanced projectiles
    that are still inside the band, in their original order.
   */
  function Surviving(ps: seq<Projectile>): (r: seq<Projectile>)
    ensures |r| <= |ps|
    ensures forall q :: q in r ==> InFlightBand(q)
    decreases |ps|
  {
    if |ps| == 0 then []
    else
      var q := Advance(ps[0]);
      (if OffScreen(q) then [] else [q]) + Surviving(ps[1..])
  }

  /**
    The Java loop: walk the list from the back, advance the projectile in
    place and remove it if it is now off screen.
   */
  method UpdateProjectiles(ps: seq<Projectile>) returns (r: seq<Projectile>)
    ensures r == Surviving(ps)
    ensures forall q :: q in r ==> InFlightBand(q)
  {
    r := ps;
    var i := |ps|;
    while i > 0
      invariant 0 <= i <= |ps|
      invariant r == ps[..i] + Surviving(ps[i..])
    {
      i := i - 1;
      assert r[..i] == ps[..i] && r[i] == ps[i] && r[i + 1..] == Surviving(ps[i + 1..]);
      assert ps[i..][1..] == ps[i + 1..];
      var q := Advance(r[i]);
      if OffScreen(q) {
        r := r[..i] + r[i + 1..];
      } else {
        r := r[..i] + [q] + r[i + 1..];
      }
    }
    assert ps[..0] == [] && ps[0..] == ps;
  }

  /** The pass distributes over concatenation, so surviving projectiles keep their relative order. */
  lemma {:induction false} SurvivingAppend(a: seq<Projectile>, b: seq<Projectile>)
    ensures Surviving(a + b) == Surviving(a) + Surviving(b)
    decreases |a|
  {
    if |a| == 0 {
      assert a + b == b;
    } else {
      assert (a + b)[1..] == a[1..] + b;
      SurvivingAppend(a[1..], b);
    }
  }

  /** A projectile survives exactly when its advanced position is not off screen. */
  lemma {:induction false} SurvivingMembers(ps: seq<Projectile>, q: Projectile)
    ensures q in Surviving(ps) <==> exists p :: p in ps && Advance(p) == q && !OffScreen(q)
    decreases |ps|
  {
    if |ps| > 0 {
      SurvivingMembers(ps[1..], q);
      if q in Surviving(ps) && Advance(ps[0]) != q {
        var p :| p in ps[1..] && Advance(p) == q && !OffScreen(q);
        assert p in ps;
      }
      if exists p :: p in ps && Advance(p) == q && !OffScreen(q) {
        var p :| p in ps && Advance(p) == q && !OffScreen(q);
        if p != ps[0] {
          assert p in ps[1..];
        }
      }
    }
  }
}

=== FILE: combat_waves.dfy ===
/**
  The wave controller of the combat game (`updateWaveSystem`, `startNextWave`
  and the three `spawnWave` rosters). It has two states: Cooldown, counting a
  2-second timer down, and Active, waiting for the enemy list to empty.
 */
module WaveSystem {
  import opened CombatEntities

  const WaveDelay: real := 2.0
  /** The boss of wave 3 spawns at (WIDTH/2 - 40, 100). */
  const BossSpawn: Point := Point((Width / 2 - 40) as real, 100.0)

  /**
    `completed` is `waveCompleted` in `enemy_system.java`: true in Cooldown, false in
    Active. `timer` is `waveStartTimer`.
   */
  datatype WaveState = WaveState(current: int, completed: bool, timer: real)

  /** The state a fresh run and a restart start from: wave 0, Cooldown, 2 seconds to go. */
  const FirstWait: WaveState := WaveState(0, true, WaveDelay)

  /** `count` enemies of one archetype at the caller-supplied ring positions of wave `n`. */
  function Ring(kind: EnemyType, n: int, count: nat, trig: Trig): (r: seq<Enemy>)
    ensures |r| == count
    ensures forall i :: 0 <= i < count ==> r[i] == NewEnemy(kind, trig.place(n, i))
  {
    seq(count, i requires 0 <= i < count => NewEnemy(kind, trig.place(n, i)))
  }

  /** The roster `startNextWave` adds for wave `n`: nothing beyond wave 3. */
  function SpawnWave(n: int, trig: Trig): (r: seq<Enemy>)
    ensures n == 1 ==> |r| == 8 && forall i :: 0 <= i < |r| ==> r[i].kind == Basic
    ensures n == 2 ==> |r| == 6 && forall i :: 0 <= i < |r| ==> r[i].kind == Strong
    ensures n == 3 ==> && |r| == 5
                       && r[0] == NewEnemy(Boss, BossSpawn)
                       && forall i :: 1 <= i < |r| ==> r[i].kind == Strong
    ensures n != 1 && n != 2 && n != 3 ==> r == []
    ensures forall e :: e in r ==> e.health == Stats(e.kind).health && e.attackCooldown == 0.0
  {
    if n == 1 then Ring(Basic, 1, 8, trig)
    else if n == 2 then Ring(Strong, 2, 6, trig)
    else if n == 3 then [NewEnemy(Boss, BossSpawn)] + Ring(Strong, 3, 4, trig)
    else []
  }

  datatype WaveStep = WaveStep(wave: WaveState, enemies: seq<Enemy>, running: bool)

  /**
    `updateWaveSystem`. The victory branch assigns `gameRunning = true`; it is
    kept, and shown below to change nothing while the run is active.
   */
  function UpdateWaveSystem(w: WaveState, es: seq<Enemy>, dt: real, running: bool, trig: Trig): (r: WaveStep)
    ensures |r.enemies| >= |es| && r.enemies[..|es|] == es
    ensures r.wave.current >= w.current
  {
    if w.completed then
      var t := w.timer - dt;
      if t <= 0.0 then
        var spawned := es + SpawnWave(w.current + 1, trig);
        assert spawned[..|es|] == es;
        WaveStep(WaveState(w.current + 1, false, WaveDelay), spawned, running)
      else
        WaveStep(w.(timer := t), es, running)
    else if |es| == 0 then
      WaveStep(w.(completed := true), es, if w.current >= 3 then true else running)
    else
      WaveStep(w, es, running)
  }

  /** Active always carries a full timer: the controller only enters Active right after resetting it. */
  predicate Coherent(w: WaveState)
  {
    w.current >= 0 && (!w.completed ==> w.timer == WaveDelay)
  }

  /**
    Cooldown: the timer drops by the tick length; when it reaches zero the
    wave number goes up by exactly one, that wave's roster is appended, and
    the controller enters Active with a fresh 2-second timer.
   */
  lemma CooldownStep(w: WaveState, es: seq<Enemy>, dt: real, running: bool, trig: Trig)
    requires w.completed
    ensures var r := UpdateWaveSystem(w, es, dt, running, trig);
            && r.running == running
            && (w.timer - dt <= 0.0 ==>
                  && r.wave == WaveState(w.current + 1, false, WaveDelay)
                  && r.enemies == es + SpawnWave(w.current + 1, trig))
            && (w.timer - dt > 0.0 ==>
                  && r.wave == WaveState(w.current, true, w.timer - dt)
                  && r.enemies == es)
  {
  }

  /** Active switches to Cooldown exactly when the enemy list is empty; it spawns nothing and keeps the wave number. */
  lemma ActiveStep(w: WaveState, es: seq<Enemy>, dt: real, running: bool, trig: Trig)
    requires !w.completed
    ensures var r := UpdateWaveSystem(w, es, dt, running, trig);
            && (r.wave.completed <==> |es| == 0)
            && r.wave.current == w.current
            && r.wave.timer == w.timer
            && r.enemies == es
  {
  }

  /** The wave number moves only on a Cooldown-to-Active transition, and then by one. */
  lemma WaveNumberCountsTransitions(w: WaveState, es: seq<Enemy>, dt: real, running: bool, trig: Trig)
    ensures var r := UpdateWaveSystem(w, es, dt, running, trig);
            && (r.wave.current == w.current + 1 <==> w.completed && !r.wave.completed)
            && (r.wave.current == w.current || r.wave.current == w.current + 1)
  {
  }

  /** The controller keeps `Coherent`. */
  lemma UpdateWaveSystemKeepsCoherent(w: WaveState, es: seq<Enemy>, dt: real, running: bool, trig: Trig)
    requires Coherent(w)
    ensures Coherent(UpdateWaveSystem(w, es, dt, running, trig).wave)
  {
  }

  /** The victory branch's `gameRunning = true` never changes an active run. */
  lemma VictoryBranchIsNoOp(w: WaveState, es: seq<Enemy>, dt: real, trig: Trig)
    ensures UpdateWaveSystem(w, es, dt, true, trig).running
  {
  }

  /** After wave 3 the counter keeps climbing on every Cooldown expiry but nothing spawns. */
  lemma LateWavesSpawnNothing(w: WaveState, es: seq<Enemy>, dt: real, running: bool, trig: Trig)
    requires w.current >= 3
    ensures UpdateWaveSystem(w, es, dt, running, trig).enemies == es
  {
  }
}

=== FILE: game_object.dfy ===
/**
  `GameObject` of the Swing prototype: a box with a float corner, integer
  size and a colour, and its `clamp` into a rectangle.
 */
module GameObject {

  datatype Color = Rgb(red: int, green: int, blue: int)

  /** `(x, y)` is the top-left corner; floats are modelled as reals. */
  datatype Body = Body(x: real, y: real, w: int, h: int, color: Color)

  function MinR(a: real, b: real): real { if a <= b then a else b }
  function MaxR(a: real, b: real): real { if a >= b then a else b }

  /** One axis of `clamp`: raise to the lower bound, then pull the far edge back inside. */
  function ClampAxis(v: real, size: int, lo: int, hi: int): (r: real)
    ensures r + size as real <= hi as real
    ensures hi - lo >= size ==> lo as real <= r <= (hi - size) as real
    ensures r == MinR(MaxR(v, lo as real), (hi - size) as real)
    ensures lo as real <= v && v + size as real <= hi as real ==> r == v
  {
    var v1 := if v < lo as real then lo as real else v;
    if v1 + size as real > hi as real then (hi - size) as real else v1
  }

  /** `clamp(minX, minY, maxX, maxY)`: each axis on its own; size and colour are untouched. */
  function Clamp(b: Body, minX: int, minY: int, maxX: int, maxY: int): (r: Body)
    ensures r.w == b.w && r.h == b.h && r.color == b.color
    ensures r.x == ClampAxis(b.x, b.w, minX, maxX)
    ensures r.y == ClampAxis(b.y, b.h, minY, maxY)
  {
    b.(x := ClampAxis(b.x, b.w, minX, maxX), y := ClampAxis(b.y, b.h, minY, maxY))
  }

  /** Clamping twice is the same as clamping once, even when the box is wider than the rectangle. */
  lemma ClampIdempotent(b: Body, minX: int, minY: int, maxX: int, maxY: int)
    ensures var c := Clamp(b, minX, minY, maxX, maxY);
            Clamp(c, minX, minY, maxX, maxY) == c
  {
  }

  /** A box that is too wide ends up flush with the right (bottom) edge: the upper bound wins. */
  lemma OversizedBoxSticksToFarEdge(b: Body, minX: int, minY: int, maxX: int, maxY: int)
    requires maxX - minX < b.w
    ensures Clamp(b, minX, minY, maxX, maxY).x == (maxX - b.w) as real
    ensures Clamp(b, minX, minY, maxX, maxY).x < minX as real
  {
  }

  /** The x adjustment does not depend on y and vice versa. */
  lemma AxesIndependent(b: Body, y2: real, x2: real, minX: int, minY: int, maxX: int, maxY: int)
    ensures Clamp(b.(y := y2), minX, minY, maxX, maxY).x == Clamp(b, minX, minY, maxX, maxY).x
    ensures Clamp(b.(x := x2), minX, minY, maxX, maxY).y == Clamp(b, minX, minY, maxX, maxY).y
  {
  }
}

=== FILE: game_stats.dfy ===
/**
  `GameStats`: a mutable bag of counters (health, ammo, score, kills, deaths,
  combo, streak). Each setter is modelled as a function returning the updated
  record. All fields are Java `int`s, so additions wrap at 32 bits.
 */
module GameStats {
  import opened JavaInt

  const DefaultMaxAmmo: Int32 := 30

  datatype Stats = Stats(
    health: Int32, maxHealth: Int32,
    ammo: Int32, maxAmmo: Int32,
    score: Int32, kills: Int32, deaths: Int32,
    combo: Int32, streak: Int32)

  /** `new GameStats(health)`. */
  function New(h: Int32): (s: Stats)
    ensures s.health == h && s.maxHealth == h
    ensures s.ammo == 30 && s.maxAmmo == 30
    ensures s.score == 0 && s.kills == 0 && s.deaths == 0 && s.combo == 0 && s.streak == 0
  {
    Stats(h, h, DefaultMaxAmmo, DefaultMaxAmmo, 0, 0, 0, 0, 0)
  }

  /** Ammunition within its bounds. */
  predicate AmmoOk(s: Stats)
  {
    0 <= s.ammo <= s.maxAmmo
  }

  /** `setMaxHealth`: no clamping, health untouched. */
  function SetMaxHealth(s: Stats, m: Int32): (r: Stats)
    ensures r.maxHealth == m && r.health == s.health
    ensures r == s.(maxHealth := m)
  {
    s.(maxHealth := m)
  }

  /** `setHealth`: no clamping against the maximum, maximum untouched. */
  function SetHealth(s: Stats, h: Int32): (r: Stats)
    ensures r.health == h && r.maxHealth == s.maxHealth
    ensures r == s.(health := h)
  {
    s.(health := h)
  }

  /** `setAmmo`: `max(0, min(a, maxAmmo))`. */
  function SetAmmo(s: Stats, a: Int32): (r: Stats)
    ensures s.maxAmmo >= 0 ==> AmmoOk(r)
    ensures 0 <= a <= s.maxAmmo ==> r.ammo == a
    ensures a < 0 ==> r.ammo == 0
    ensures a > s.maxAmmo ==> r.ammo == Max(0, s.maxAmmo)
    ensures r == s.(ammo := r.ammo)
  {
    s.(ammo := Max(0, Min(a, s.maxAmmo)))
  }

  /** Setting the same amount twice is the same as setting it once, and re-setting the current amount of a valid record changes nothing. */
  lemma SetAmmoIdempotent(s: Stats, a: Int32)
    ensures SetAmmo(SetAmmo(s, a), a) == SetAmmo(s, a)
    ensures AmmoOk(s) ==> SetAmmo(s, s.ammo) == s
  {
  }

  /** `setMaxAmmo`: the new cap, with ammo cut down to it if needed. */
  function SetMaxAmmo(s: Stats, m: Int32): (r: Stats)
    ensures r.maxAmmo == m && r.ammo <= m
    ensures s.ammo <= m ==> r.ammo == s.ammo
    ensures s.ammo > m ==> r.ammo == m
    ensures m >= 0 && s.ammo >= 0 ==> AmmoOk(r)
    ensures r == s.(ammo := r.ammo, maxAmmo := m)
  {
    s.(maxAmmo := m, ammo := Min(s.ammo, m))
  }

  /** `addAmmo`: `setAmmo(ammo + amount)`, the sum wrapping at 32 bits. */
  function AddAmmo(s: Stats, n: Int32): (r: Stats)
    ensures AmmoOk(s) ==> AmmoOk(r)
    ensures s.maxAmmo >= 0 ==> AmmoOk(r)
    ensures 0 <= s.ammo + n <= s.maxAmmo ==> r.ammo == s.ammo + n
    ensures s.maxAmmo >= 0 && s.maxAmmo < s.ammo + n <= MaxInt ==> r.ammo == s.maxAmmo
    ensures MinInt <= s.ammo + n < 0 ==> r.ammo == 0
    ensures r == s.(ammo := r.ammo)
  {
    SetAmmo(s, Wrap(s.ammo + n))
  }

  /** `useAmmo`: `setAmmo(ammo - amount)`, the difference wrapping at 32 bits. */
  function UseAmmo(s: Stats, n: Int32): (r: Stats)
    ensures s.maxAmmo >= 0 ==> AmmoOk(r)
    ensures 0 <= s.ammo - n <= s.maxAmmo ==> r.ammo == s.ammo - n
    ensures MinInt <= s.ammo - n < 0 ==> r.ammo == 0
    ensures s.maxAmmo >= 0 && s.maxAmmo < s.ammo - n <= MaxInt ==> r.ammo == s.maxAmmo
    ensures r == s.(ammo := r.ammo)
  {
    SetAmmo(s, Wrap(s.ammo - n))
  }

  /** `addScore`: only the score changes. */
  function AddScore(s: Stats, n: Int32): (r: Stats)
    ensures MinInt <= s.score + n <= MaxInt ==> r.score == s.score + n
    ensures r == s.(score := r.score)
  {
    s.(score := Wrap(s.score + n))
  }

  /** `addKill`: one more kill, nothing else changes. */
  function AddKill(s: Stats): (r: Stats)
    ensures s.kills < MaxInt ==> r.kills == s.kills + 1
    ensures s.kills == MaxInt ==> r.kills == MinInt
    ensures r == s.(kills := r.kills)
  {
    s.(kills := Wrap(s.kills + 1))
  }

  /** `addDeath`: one more death, nothing else changes. */
  function AddDeath(s: Stats): (r: Stats)
    ensures s.deaths < MaxInt ==> r.deaths == s.deaths + 1
    ensures s.deaths == MaxInt ==> r.deaths == MinInt
    ensures r == s.(deaths := r.deaths)
  {
    s.(deaths := Wrap(s.deaths + 1))
  }

  /** `incrementCombo`. */
  function IncrementCombo(s: Stats): (r: Stats)
    ensures s.combo < MaxInt ==> r.combo == s.combo + 1
    ensures s.combo == MaxInt ==> r.combo == MinInt
    ensures r == s.(combo := r.combo)
  {
    s.(combo := Wrap(s.combo + 1))
  }

  /** `resetCombo`. */
  function ResetCombo(s: Stats): (r: Stats)
    ensures r.combo == 0 && r == s.(combo := 0)
  {
    s.(combo := 0)
  }

  /** `incrementStreak`. */
  function IncrementStreak(s: Stats): (r: Stats)
    ensures s.streak < MaxInt ==> r.streak == s.streak + 1
    ensures s.streak == MaxInt ==> r.streak == MinInt
    ensures r == s.(streak := r.streak)
  {
    s.(streak := Wrap(s.streak + 1))
  }

  /** `resetStreak`. */
  function ResetStreak(s: Stats): (r: Stats)
    ensures r.streak == 0 && r == s.(streak := 0)
  {
    s.(streak := 0)
  }

  /** A fresh record satisfies the ammunition bounds, and every ammunition operation keeps them. */
  lemma AmmoBoundsHold(h: Int32, s: Stats, n: Int32, m: Int32)
    ensures AmmoOk(New(h))
    ensures AmmoOk(s) ==> AmmoOk(SetAmmo(s, n)) && AmmoOk(AddAmmo(s, n)) && AmmoOk(UseAmmo(s, n))
    ensures AmmoOk(s) && m >= 0 ==> AmmoOk(SetMaxAmmo(s, m))
  {
  }

  // ----------------------------------------------------------------------
  // Finding: adding a huge amount of ammunition empties the magazine
  // ----------------------------------------------------------------------

  /** As written, `addAmmo(Integer.MAX_VALUE)` on a full magazine wraps to a negative sum and leaves ammo at 0. */
  lemma AddAmmoOverflowEmpties()
    ensures var s := New(100);
            && s.ammo == 30
            && AddAmmo(s, MaxInt).ammo == 0
  {
    var s := New(100);
    assert Wrap(s.ammo + MaxInt) == s.ammo + MaxInt - Modulus;
  }

  /** `addAmmo` with the sum taken in 64 bits, as in `setAmmo((int) Math.min((long) ammo + amount, maxAmmo))`. */
  function AddAmmoWide(s: Stats, n: Int32): (r: Stats)
    requires AmmoOk(s)
    ensures AmmoOk(r)
    ensures n >= 0 ==> r.ammo >= s.ammo
    ensures n >= 0 ==> r.ammo == Min(s.ammo + n, s.maxAmmo)
    ensures r == s.(ammo := r.ammo)
  {
    SetAmmo(s, Min(s.ammo + n, s.maxAmmo))
  }

  /** Where no overflow happens the widened version agrees with the original. */
  lemma AddAmmoWideAgrees(s: Stats, n: Int32)
    requires AmmoOk(s) && s.ammo + n <= MaxInt
    ensures AddAmmoWide(s, n) == AddAmmo(s, n)
  {
  }
}

=== FILE: java_int.dfy ===
/**
  Java's 32-bit `int` arithmetic and the `Math.max` / `Math.min` helpers the
  stat records are written with. Dafny integers are unbounded, so every `int`
  expression of the Java code that can leave the 32-bit range goes through `Wrap`.
 */
module JavaInt {

  const MinInt: int := -0x8000_0000
  const MaxInt: int := 0x7fff_ffff
  const Modulus: int := 0x1_0000_0000

  /** The values a Java `int` variable can hold. */
  type Int32 = x: int | -0x8000_0000 <= x <= 0x7fff_ffff

  /** The two's-complement value Java stores for the mathematical result `x`. */
  function Wrap(x: int): (r: Int32)
    ensures MinInt <= x <= MaxInt ==> r == x
    ensures x > MaxInt && x - Modulus <= MaxInt ==> r == x - Modulus
    ensures x < MinInt && x + Modulus >= MinInt ==> r == x + Modulus
  {
    (x - MinInt) % Modulus + MinInt
  }

  /** `Math.max` on ints. */
  function Max(a: int, b: int): (r: int)
    ensures r >= a && r >= b
    ensures r == a || r == b
  {
    if a >= b then a else b
  }

  /** `Math.min` on ints. */
  function Min(a: int, b: int): (r: int)
    ensures r <= a && r <= b
    ensures r == a || r == b
  {
    if a <= b then a else b
  }
}

=== FILE: level_manager.dfy ===
/**
  `LevelManager` of the Swing prototype: when the panel has no enemies and
  more than 2000 ms have passed since the last wave, it advances the
  stage/wave counters and spawns `max(1, stage * wave)` 20x20 enemies, each on
  a randomly chosen edge of the panel.

  The clock is a parameter (`now`, in milliseconds). The fresh `Random` of
  each wave is a stream of draws: the k-th call on it reads `draws(k)`,
  `nextInt(bound)` returns `draws(k) % bound`, and `nextInt` with a bound of
  zero or less raises IllegalArgumentException.
 */
module LevelManager {
  import opened JavaInt
  import opened GameObject

  const Cooldown: int := 2000
  const EnemySize: int := 20
  const EnemyColor: Color := Rgb(255, 0, 0)

  datatype Manager = Manager(stage: int, wave: int, lastWave: int)

  /** The constructor: stage 1, no wave yet, the clock read at creation. */
  function Create(now: int): (m: Manager)
    ensures m.stage == 1 && m.wave == 0 && m.lastWave == now
  {
    Manager(1, 0, now)
  }

  /** The counters a manager keeps from creation onward. */
  predicate Progress(m: Manager)
  {
    m.stage >= 1 && 0 <= m.wave <= m.stage + 1
  }

  /** Stage `s` has `s + 1` waves; after the last one the next stage starts at wave 1. */
  function NextWave(stage: int, wave: int): (r: (int, int))
    ensures (r.0 == stage && r.1 == wave + 1) || (r.0 == stage + 1 && r.1 == 1)
    ensures r.0 == stage + 1 <==> wave + 1 > stage + 1
    ensures stage >= 1 && 0 <= wave <= stage + 1 ==> r.0 >= 1 && 1 <= r.1 <= r.0 + 1
  {
    var w := wave + 1;
    if w > stage + 1 then (stage + 1, 1) else (stage, w)
  }

  /** The first six waves of a run. */
  lemma FirstWaves()
    ensures NextWave(1, 0) == (1, 1)
    ensures NextWave(1, 1) == (1, 2)
    ensures NextWave(1, 2) == (2, 1)
    ensures NextWave(2, 1) == (2, 2)
    ensures NextWave(2, 2) == (2, 3)
    ensures NextWave(2, 3) == (3, 1)
  {
  }

  /** The outcome of a Java call that may raise IllegalArgumentException. */
  datatype Thrown<T> = Returned(value: T) | IllegalArgument

  /** `Random.nextInt(bound)` on the given draw. */
  function NextInt(draw: nat, bound: int): (r: Thrown<int>)
    ensures r.IllegalArgument? <==> bound <= 0
    ensures r.Returned? ==> 0 <= r.value < bound
  {
    if bound <= 0 then IllegalArgument else Returned(draw % bound)
  }

  /** Inside the panel and touching one of its four edges. */
  predicate OnEdge(b: Body, width: int, height: int)
  {
    && 0.0 <= b.x <= (width - EnemySize) as real
    && 0.0 <= b.y <= (height - EnemySize) as real
    && (b.y == 0.0 || b.x == (width - EnemySize) as real
        || b.y == (height - EnemySize) as real || b.x == 0.0)
  }

  function EnemyAt(px: int, py: int): Body
  {
    Body(px as real, py as real, EnemySize, EnemySize, EnemyColor)
  }

  /** One enemy of `spawnWave`: an edge from the first draw, a position along it from the second. */
  function PlaceEnemy(edgeDraw: nat, alongDraw: nat, width: int, height: int): (r: Thrown<Body>)
    ensures r.IllegalArgument? <==>
              ((edgeDraw % 4 == 0 || edgeDraw % 4 == 2) && width <= EnemySize)
              || ((edgeDraw % 4 == 1 || edgeDraw % 4 == 3) && height <= EnemySize)
    ensures r.Returned? && width >= EnemySize && height >= EnemySize ==> OnEdge(r.value, width, height)
    ensures r.Returned? ==> r.value.w == EnemySize && r.value.h == EnemySize && r.value.color == EnemyColor
  {
    var edge := edgeDraw % 4;
    if edge == 0 then
      match NextInt(alongDraw, width - EnemySize)
      case IllegalArgument => IllegalArgument
      case Returned(px) => Returned(EnemyAt(px, 0))
    else if edge == 1 then
      match NextInt(alongDraw, height - EnemySize)
      case IllegalArgument => IllegalArgument
      case Returned(py) => Returned(EnemyAt(width - EnemySize, py))
    else if edge == 2 then
      match NextInt(alongDraw, width - EnemySize)
      case IllegalArgument => IllegalArgument
      case Returned(px) => Returned(EnemyAt(px, height - EnemySize))
    else
      match NextInt(alongDraw, height - EnemySize)
      case IllegalArgument => IllegalArgument
      case Returned(py) => Returned(EnemyAt(0, py))
  }

  /**
    What `spawnWave` leaves in the panel: the enemies added, and whether a
    `nextInt` call threw part-way (the enemies before the failing one stay).
   */
  datatype Spawn = Spawn(enemies: seq<Body>, thrown: bool)

  /**
    Enemies `i` to `count - 1` of a wave. Enemy `i` consumes three draws: the
    edge, the position along it, and the speed jitter (not modelled).
   */
  function SpawnFrom(i: nat, count: nat, width: int, height: int, draws: nat -> nat): (r: Spawn)
    ensures width > EnemySize && height > EnemySize ==> !r.thrown
    ensures !r.thrown ==> |r.enemies| == if i <= count then count - i else 0
    ensures r.thrown ==> i + |r.enemies| < count
    ensures width >= EnemySize && height >= EnemySize ==>
              forall b :: b in r.enemies ==> OnEdge(b, width, height)
    ensures forall b :: b in r.enemies ==> b.w == EnemySize && b.h == EnemySize
    decreases count - i
  {
    if i >= count then Spawn([], false)
    else
      match PlaceEnemy(draws(3 * i), draws(3 * i + 1), width, height)
      case IllegalArgument => Spawn([], true)
      case Returned(b) =>
        var rest := SpawnFrom(i + 1, count, width, height, draws);
        Spawn([b] + rest.enemies, rest.thrown)
  }

  /** `spawnWave(stage, wave)`: `max(1, stage * wave)` enemies unless a draw on a too-small panel throws. */
  function SpawnWave(stage: int, wave: int, width: int, height: int, draws: nat -> nat): (r: Spawn)
    ensures width > EnemySize && height > EnemySize ==> !r.thrown
    ensures !r.thrown ==> |r.enemies| == Max(1, stage * wave)
    ensures r.thrown ==> |r.enemies| < Max(1, stage * wave)
    ensures width >= EnemySize && height >= EnemySize ==>
              forall b :: b in r.enemies ==> OnEdge(b, width, height)
    ensures forall b :: b in r.enemies ==> b.w == EnemySize && b.h == EnemySize
  {
    var count: nat := Max(1, stage * wave);
    SpawnFrom(0, count, width, height, draws)
  }

  /** Once a run has started, the `max(1, ...)` never matters: the count is exactly stage times wave. */
  lemma SpawnCountIsProduct(stage: int, wave: int)
    requires stage >= 1 && wave >= 1
    ensures Max(1, stage * wave) == stage * wave >= 1
  {
    assert stage * wave >= stage * 1 by {
      assert stage * wave - stage * 1 == stage * (wave - 1);
    }
  }

  /** `thrown` records that `update` ended with an IllegalArgumentException. */
  datatype Tick = Tick(manager: Manager, spawned: seq<Body>, thrown: bool)

  /** Whether `update` spawns at time `now`: no enemies left and strictly more than the cooldown elapsed. */
  predicate Due(m: Manager, enemyCount: int, now: int)
  {
    enemyCount == 0 && now - m.lastWave > Cooldown
  }

  /**
    `update()`. The counters advance before `spawnWave` runs, and `lastWave`
    is written after it, so an exception leaves the new counters with the old
    `lastWave`.
   */
  function Update(m: Manager, enemyCount: int, now: int, width: int, height: int, draws: nat -> nat): (r: Tick)
    ensures !Due(m, enemyCount, now) ==> r == Tick(m, [], false)
    ensures Due(m, enemyCount, now) ==>
              && (r.manager.stage, r.manager.wave) == NextWave(m.stage, m.wave)
              && r.manager.lastWave == (if r.thrown then m.lastWave else now)
              && r.thrown == SpawnWave(r.manager.stage, r.manager.wave, width, height, draws).thrown
              && (!r.thrown ==> |r.spawned| == Max(1, r.manager.stage * r.manager.wave))
    ensures Due(m, enemyCount, now) && width > EnemySize && height > EnemySize ==> !r.thrown
  {
    if Due(m, enemyCount, now) then
      var (stage, wave) := NextWave(m.stage, m.wave);
      var s := SpawnWave(stage, wave, width, height, draws);
      Tick(Manager(stage, wave, if s.thrown then m.lastWave else now), s.enemies, s.thrown)
    else
      Tick(m, [], false)
  }

  /**
    `update` keeps the counters in range and never lowers the stage; after a
    spawn the wave is between 1 and stage + 1 and exactly stage * wave enemies
    appeared, each on an edge of a panel at least 20 wide and high.
   */
  lemma UpdateKeepsProgress(m: Manager, enemyCount: int, now: int, width: int, height: int, draws: nat -> nat)
    requires Progress(m)
    ensures var r := Update(m, enemyCount, now, width, height, draws);
            && Progress(r.manager)
            && r.manager.stage >= m.stage
            && (Due(m, enemyCount, now) ==>
                  && 1 <= r.manager.wave <= r.manager.stage + 1
                  && (!r.thrown ==> |r.spawned| == r.manager.stage * r.manager.wave))
            && (width >= EnemySize && height >= EnemySize ==>
                  forall b :: b in r.spawned ==> OnEdge(b, width, height))
  {
    var r := Update(m, enemyCount, now, width, height, draws);
    if Due(m, enemyCount, now) {
      var (stage, wave) := NextWave(m.stage, m.wave);
      SpawnCountIsProduct(stage, wave);
    }
  }

  /** `lastWave` moves to `now` exactly when a wave is spawned in full, and only then do enemies appear. */
  lemma LastWaveMarksSpawns(m: Manager, enemyCount: int, now: int, width: int, height: int, draws: nat -> nat)
    requires Progress(m) && now != m.lastWave
    ensures var r := Update(m, enemyCount, now, width, height, draws);
            r.manager.lastWave == now <==> Due(m, enemyCount, now) && !r.thrown
    ensures var r := Update(m, enemyCount, now, width, height, draws);
            !r.thrown ==> (|r.spawned| > 0 <==> Due(m, enemyCount, now))
  {
    var r := Update(m, enemyCount, now, width, height, draws);
    if Due(m, enemyCount, now) {
      var (stage, wave) := NextWave(m.stage, m.wave);
      SpawnCountIsProduct(stage, wave);
    }
  }
}

=== FILE: player_stats.dfy ===
/**
  `PlayerStats`: health with a fixed maximum, ammunition capped at 30, and a
  score. Every operation returns the updated record; fields are Java `int`s.
 */
module PlayerStats {
  import opened JavaInt

  const AmmoCap: Int32 := 30
  const DefaultMaxHealth: Int32 := 100

  datatype PlayerStats = PlayerStats(health: Int32, maxHealth: Int32, ammo: Int32, score: Int32)

  /** `new PlayerStats(maxHealth)`. */
  function New(m: Int32): (s: PlayerStats)
    ensures s.health == m && s.maxHealth == m && s.ammo == 30 && s.score == 0
  {
    PlayerStats(m, m, AmmoCap, 0)
  }

  /** `new PlayerStats()`: the same with a maximum of 100. */
  function NewDefault(): (s: PlayerStats)
    ensures s == New(100)
  {
    New(DefaultMaxHealth)
  }

  /** `reset`: back to the constructor's values for this maximum. */
  function Reset(s: PlayerStats): (r: PlayerStats)
    ensures r == New(s.maxHealth)
  {
    s.(health := s.maxHealth, ammo := AmmoCap, score := 0)
  }

  predicate IsDead(s: PlayerStats)
  {
    s.health <= 0
  }

  /** Health within its bounds. */
  predicate HealthOk(s: PlayerStats)
  {
    0 <= s.health <= s.maxHealth
  }

  /** `takeDamage`: `max(0, health - damage)`. */
  function TakeDamage(s: PlayerStats, d: Int32): (r: PlayerStats)
    ensures r.health >= 0
    ensures MinInt <= s.health - d <= MaxInt ==> r.health == Max(0, s.health - d)
    ensures HealthOk(s) && d >= 0 ==> HealthOk(r) && r.health <= s.health
    ensures r == s.(health := r.health)
  {
    s.(health := Max(0, Wrap(s.health - d)))
  }

  /** `damage`: subtract, then reset a negative result to 0. */
  function Damage(s: PlayerStats, d: Int32): (r: PlayerStats)
    ensures r.health >= 0
    ensures HealthOk(s) && d >= 0 ==> HealthOk(r)
    ensures r == s.(health := r.health)
  {
    var h := Wrap(s.health - d);
    s.(health := if h < 0 then 0 else h)
  }

  /** The two damage operations agree on every amount. */
  lemma DamageIsTakeDamage(s: PlayerStats, d: Int32)
    ensures Damage(s, d) == TakeDamage(s, d)
  {
  }

  /** `useAmmo`: `max(0, ammo - amount)`. */
  function UseAmmo(s: PlayerStats, n: Int32): (r: PlayerStats)
    ensures r.ammo >= 0
    ensures MinInt <= s.ammo - n <= MaxInt ==> r.ammo == Max(0, s.ammo - n)
    ensures r == s.(ammo := r.ammo)
  {
    s.(ammo := Max(0, Wrap(s.ammo - n)))
  }

  /** `addAmmo`: `min(30, ammo + amount)`, the sum wrapping at 32 bits. */
  function AddAmmo(s: PlayerStats, n: Int32): (r: PlayerStats)
    ensures r.ammo <= AmmoCap
    ensures MinInt <= s.ammo + n <= MaxInt ==> r.ammo == Min(AmmoCap, s.ammo + n)
    ensures r == s.(ammo := r.ammo)
  {
    s.(ammo := Min(AmmoCap, Wrap(s.ammo + n)))
  }

  /** `addScore`: only the score changes. */
  function AddScore(s: PlayerStats, n: Int32): (r: PlayerStats)
    ensures MinInt <= s.score + n <= MaxInt ==> r.score == s.score + n
    ensures r == s.(score := r.score)
  {
    s.(score := Wrap(s.score + n))
  }

  /** `heal`: add, then cut back to the maximum; the sum wraps at 32 bits. */
  function Heal(s: PlayerStats, n: Int32): (r: PlayerStats)
    ensures r.health <= s.maxHealth
    ensures MinInt <= s.health + n <= MaxInt ==> r.health == Min(s.maxHealth, s.health + n)
    ensures r == s.(health := r.health)
  {
    var h := Wrap(s.health + n);
    s.(health := if h > s.maxHealth then s.maxHealth else h)
  }

  /** `isDead` holds exactly at zero health for a record within bounds, and no operation changes the maximum. */
  lemma MaxHealthIsFinal(s: PlayerStats, n: Int32)
    ensures Reset(s).maxHealth == s.maxHealth
    ensures TakeDamage(s, n).maxHealth == s.maxHealth && Damage(s, n).maxHealth == s.maxHealth
    ensures Heal(s, n).maxHealth == s.maxHealth
    ensures UseAmmo(s, n).maxHealth == s.maxHealth && AddAmmo(s, n).maxHealth == s.maxHealth
    ensures AddScore(s, n).maxHealth == s.maxHealth
    ensures HealthOk(s) ==> (IsDead(s) <==> s.health == 0)
  {
  }

  // ----------------------------------------------------------------------
  // Findings: `heal` and `addAmmo` overflow on huge amounts
  // ----------------------------------------------------------------------

  /** As written, healing a full-health record by `Integer.MAX_VALUE` wraps the sum and leaves health negative. */
  lemma HealOverflowBreaksBounds()
    ensures var s := NewDefault();
            && HealthOk(s)
            && Heal(s, MaxInt).health < 0
  {
    var s := NewDefault();
    assert Wrap(s.health + MaxInt) == s.health + MaxInt - Modulus;
  }

  /** As written, adding `Integer.MAX_VALUE` to a full magazine wraps the sum and leaves ammunition negative. */
  lemma AddAmmoOverflowGoesNegative()
    ensures var s := NewDefault();
            && s.ammo == 30
            && AddAmmo(s, MaxInt).ammo < 0
  {
    var s := NewDefault();
    assert Wrap(s.ammo + MaxInt) == s.ammo + MaxInt - Modulus;
  }

  /** `heal` with the sum taken in 64 bits: `(int) Math.min((long) health + amount, maxHealth)`. */
  function HealWide(s: PlayerStats, n: Int32): (r: PlayerStats)
    requires HealthOk(s)
    ensures n >= 0 ==> HealthOk(r) && r.health >= s.health
    ensures n >= 0 ==> r.health == Min(s.maxHealth, s.health + n)
    ensures r == s.(health := r.health)
  {
    s.(health := Wrap(Min(s.maxHealth, s.health + n)))
  }

  /** `addAmmo` with the sum taken in 64 bits. */
  function AddAmmoWide(s: PlayerStats, n: Int32): (r: PlayerStats)
    requires 0 <= s.ammo
    ensures n >= 0 ==> s.ammo <= r.ammo || r.ammo == AmmoCap
    ensures n >= 0 ==> 0 <= r.ammo && r.ammo == Min(AmmoCap, s.ammo + n)
    ensures r == s.(ammo := r.ammo)
  {
    s.(ammo := Wrap(Min(AmmoCap, s.ammo + n)))
  }

  /** Where no overflow happens the widened versions agree with the originals. */
  lemma WideVersionsAgree(s: PlayerStats, n: Int32)
    requires HealthOk(s) && 0 <= s.ammo
    ensures s.health + n <= MaxInt ==> HealWide(s, n) == Heal(s, n)
    ensures s.ammo + n <= MaxInt ==> AddAmmoWide(s, n) == AddAmmo(s, n)
  {
  }

  /** With the widened `heal`, the health bounds hold after every operation on a non-negative amount. */
  lemma HealthBoundsHold(s: PlayerStats, n: Int32)
    requires HealthOk(s) && n >= 0
    ensures HealthOk(TakeDamage(s, n)) && HealthOk(Damage(s, n)) && HealthOk(HealWide(s, n))
    ensures 0 <= s.maxHealth ==> HealthOk(New(s.maxHealth)) && HealthOk(Reset(s))
  {
  }
}

=== FILE: swing_player.dfy ===
/**
  `Player.update(Input)` of the Swing prototype: arrow keys and their WASD
  aliases give a direction on each axis, diagonals are scaled by 0.707 and the
  result is multiplied by a speed of 4.5. The pressed-key set stands for `Input`.
 */
module SwingPlayer {
  import opened GameObject

  // java.awt.event.KeyEvent codes.
  const VkLeft: int := 37
  const VkUp: int := 38
  const VkRight: int := 39
  const VkDown: int := 40
  const VkA: int := 65
  const VkD: int := 68
  const VkS: int := 83
  const VkW: int := 87

  const Speed: real := 4.5
  const Diagonal: real := 0.707

  /** One axis: -1 for the "minus" pair (arrow or its alias), +1 for the "plus" pair, summed. */
  function AxisSign(keys: set<int>, minusArrow: int, minusAlias: int, plusArrow: int, plusAlias: int): (r: int)
    ensures -1 <= r <= 1
    ensures r == -1 <==> (minusArrow in keys || minusAlias in keys) && !(plusArrow in keys || plusAlias in keys)
    ensures r == 1 <==> (plusArrow in keys || plusAlias in keys) && !(minusArrow in keys || minusAlias in keys)
  {
    (if minusArrow in keys || minusAlias in keys then -1 else 0)
    + (if plusArrow in keys || plusAlias in keys then 1 else 0)
  }

  /** The unscaled direction `(dx, dy)`. */
  function Direction(keys: set<int>): (r: (int, int))
    ensures -1 <= r.0 <= 1 && -1 <= r.1 <= 1
    ensures r.0 == 0 <==> ((VkLeft in keys || VkA in keys) <==> (VkRight in keys || VkD in keys))
    ensures r.1 == 0 <==> ((VkUp in keys || VkW in keys) <==> (VkDown in keys || VkS in keys))
    ensures r.0 < 0 <==> (VkLeft in keys || VkA in keys) && !(VkRight in keys || VkD in keys)
    ensures r.1 < 0 <==> (VkUp in keys || VkW in keys) && !(VkDown in keys || VkS in keys)
  {
    (AxisSign(keys, VkLeft, VkA, VkRight, VkD), AxisSign(keys, VkUp, VkW, VkDown, VkS))
  }

  /** The displacement of one update: the direction, scaled by 0.707 on diagonals, times the speed. */
  function Displacement(keys: set<int>): (r: (real, real))
    ensures var (dx, dy) := Direction(keys);
            (dx != 0 && dy != 0) ==> r == (dx as real * Diagonal * Speed, dy as real * Diagonal * Speed)
    ensures var (dx, dy) := Direction(keys);
            (dx == 0 || dy == 0) ==> r == (dx as real * Speed, dy as real * Speed)
  {
    var (dx, dy) := Direction(keys);
    var scale := if dx != 0 && dy != 0 then Diagonal else 1.0;
    (dx as real * scale * Speed, dy as real * scale * Speed)
  }

  /** `update(Input)`: move the player's body; size and colour are untouched. */
  function Update(b: Body, keys: set<int>): (r: Body)
    ensures r.w == b.w && r.h == b.h && r.color == b.color
    ensures r.x == b.x + Displacement(keys).0 && r.y == b.y + Displacement(keys).1
  {
    var d := Displacement(keys);
    b.(x := b.x + d.0, y := b.y + d.1)
  }

  /** The 0.707 factor keeps a diagonal step no longer than an axial one, and within 0.1% of it. */
  lemma DiagonalNotFaster(keys: set<int>)
    ensures var (ex, ey) := Displacement(keys);
            ex * ex + ey * ey <= Speed * Speed
    ensures var (dx, dy) := Direction(keys);
            var (ex, ey) := Displacement(keys);
            dx != 0 ==> ex * ex + ey * ey >= 0.999 * Speed * Speed
  {
  }

  /** Holding both keys of an opposite pair cancels that axis. */
  lemma OppositeKeysCancel(keys: set<int>)
    ensures (VkLeft in keys || VkA in keys) && (VkRight in keys || VkD in keys) ==> Direction(keys).0 == 0
    ensures (VkUp in keys || VkW in keys) && (VkDown in keys || VkS in keys) ==> Direction(keys).1 == 0
  {
  }

  /** An arrow and its letter alias are interchangeable, and holding both counts once. */
  lemma AliasesInterchangeable(keys: set<int>)
    ensures Direction(keys + {VkLeft}) == Direction(keys + {VkA}) == Direction(keys + {VkLeft, VkA})
    ensures Direction(keys + {VkRight}) == Direction(keys + {VkD}) == Direction(keys + {VkRight, VkD})
    ensures Direction(keys + {VkUp}) == Direction(keys + {VkW}) == Direction(keys + {VkUp, VkW})
    ensures Direction(keys + {VkDown}) == Direction(keys + {VkS}) == Direction(keys + {VkDown, VkS})
  {
  }

  /** Axial movement changes exactly one coordinate, by exactly the speed; no movement key means no movement. */
  lemma AxialStep(b: Body)
    ensures Update(b, {VkLeft}) == b.(x := b.x - Speed)
    ensures Update(b, {VkD}) == b.(x := b.x + Speed)
    ensures Update(b, {VkW}) == b.(y := b.y - Speed)
    ensures Update(b, {VkDown}) == b.(y := b.y + Speed)
    ensures Update(b, {}) == b
  {
  }

  /** Keys other than the eight movement keys do not matter. */
  lemma OtherKeysIgnored(keys: set<int>, k: int)
    requires k !in {VkLeft, VkUp, VkRight, VkDown, VkA, VkD, VkS, VkW}
    ensures Direction(keys + {k}) == Direction(keys)
  {
  }
}
